=== FILE: README.md ===
# merakitoolkit PSK rotation, modelled in Dafny

merakitoolkit is a command-line tool that rotates the pre-shared key (PSK) of a
wireless SSID across a Meraki dashboard inventory. It works in four stages:

- It picks or generates the passphrase (`generate_psk`).
- It resolves the target networks by organization, network name, tag and SSID
  name (`pskchangeasync` with `process_network`). It talks to the dashboard
  through four retry-on-429 calls.
- It sends the updates concurrently.
- It records the outcome in the operation record. The e-mail step reads the
  record and composes a notification only for a successful operation.

The `psktemplategen` command copies the packaged e-mail templates into the
first free local directory.

The model is functional throughout:

- Every step returns a `Step`. A step either completes with a value
  (`Done`), calls `sys.exit(code)` (`Exited`), raises an exception no handler
  catches (`Crashed`), or is still retrying on rate-limit replies when its
  reply trace runs out (`Unsettled`).
- The dashboard is a `Remote`: one reply trace per kind of request, keyed by
  the organization id (network listings) or the network id (SSID listings and
  updates), plus one trace for the organization listing. A reply is an
  answer, a 429, another `AsyncAPIError`, an `APIError`, or any other
  exception. An API error is *described* when its message's "errors" entry,
  which the handlers print, can be read. Every request with the same key
  sees the same trace. A missing key is an empty trace, on which the request
  never settles.
- Randomness is a `Draws` value. Each raw draw is reduced into the range of
  the `random` call it stands for.
- The environment is a map. The file system is a set of existing paths.

| file | module | models |
|---|---|---|
| `outcomes.dfy` | `Outcomes` | shared `Option` and `Step` types |
| `text.dfy` | `Text` | `str.split("::")`, `str(n)` and `int(s)`, ASCII `upper()` |
| `psk_generator.dfy` | `PskGenerator` | `merakitoolkitsupport.py` (`generate_psk`, `generate_qrcode`) |
| `dashboard.dfy` | `Dashboard` | the four retry-wrapped calls of `merakitoolkit.py` |
| `operation.dfy` | `Operation` | the `MerakiToolkit` constructor, `apikey` and `current_operation` setters |
| `psk_change.dfy` | `PskChange` | `pskchangeasync` and `process_network` |
| `command_line.dfy` | `CommandLine` | `merakitoolkitparser.py` |
| `program.dfy` | `Program` | `__main__.py` |

## Behaviour worth knowing

- **Passphrase length.** A randomised passphrase is the seed plus two
  characters. Upper-casing replaces a character in place. Only the symbol and
  the digit are inserted (`PskGenerator.GeneratePsk`).
- **Upper-case letter not guaranteed.** Randomisation does not always produce
  an upper-case letter. When the drawn position holds a digit or a symbol,
  nothing changes case (`PskGenerator.UpperNotGuaranteed`).
- **Dry run and `-v` send nothing.** With a dry run or `verbose >= 1` no
  update request is made: the outcome is the same whatever the update replies
  are (`PskChange.ListingRunSendsNoUpdate`).
- **Empty filters pass.** Only a `None` organization or network filter is
  fatal. An empty list passes the precondition and selects nothing.
- **Mismatched update is fatal.** A returned SSID whose `psk` differs from the
  submitted passphrase raises `ValueError`. The broad handler turns it into
  exit code 2, so one mismatch ends the whole run. Any exception other than
  an API error is fatal in the same way.
- **An unreadable API error is fatal.** The handlers print
  `err.message["errors"]`. When that entry cannot be read, the exception
  escapes the handler and the run exits with code 2 instead of getting
  None or False (`Dashboard.ReplyRules`).
- **`APIError` when listing organizations.** A synchronous `APIError` from
  `get_organizations` has no branch of its own, so it is fatal. When the
  organization listing returns `None`, iterating it is fatal as well.
- **`-v` skips the updates.** With `verbose >= 1` and no dry run, the run
  prints the target table and sends no update. `data_has_changed` stays
  false, so the record is not marked successful and no e-mail follows.
- **One fan-out, no deduplication.** Network tasks from all organizations are
  gathered in a single fan-out after the organization loop. A network listed
  twice yields two targets.
- **No operation history.** The `_last_operation` history is always `None`.
  The setter runs once per toolkit, before `_last_operation` exists.

## Model

| member | source | states |
|---|---|---|
| `Text.Split` | merakitoolkit/merakitoolkit.py:102 | the environment value splits into at least one piece, and no piece contains the "::" separator |
| `Text.JoinSplit` | merakitoolkit/merakitoolkit.py:120 | joining the "::"-split pieces with "::" gives back the original variable value |
| `Text.SplitCutsLeftmost` | merakitoolkit/merakitoolkit.py:102 | the split cuts as Python's does: the first piece ends where the leftmost "::" begins, and no piece before the last ends with ':' |
| `Text.NatToString` | merakitoolkit/merakitoolkit.py:300 | `str(position)` is a non-empty decimal string without a leading zero |
| `Text.ParseNatToString` | merakitoolkit/merakitoolkit.py:300 | `int(str(n)) == n`: the recorded slot string names the same slot again |
| `Text.NatToStringInjective` | merakitoolkit/__main__.py:41 | different suffix numbers give different suffix strings |
| `Text.AsciiUpper` | merakitoolkit/merakitoolkitsupport.py:50 | a lower-case letter becomes its upper-case letter, and any other character is unchanged |
| `PskGenerator.Chosen` | merakitoolkit/merakitoolkitsupport.py:37 | `random.choice` returns one of the candidates |
| `PskGenerator.Randomize` | merakitoolkit/merakitoolkitsupport.py:46-53 | the result is two characters longer and the digit sits at its drawn position. The symbol sits at its drawn position, shifted by one when the digit went in before it. Removing both gives the seed with one position upper-cased |
| `PskGenerator.GeneratePsk` | merakitoolkit/merakitoolkitsupport.py:35-54 | without randomisation the result is the chosen candidate. With it, the result is the seed plus two characters and holds a symbol of `@#!.&()=` and a digit. A generated passphrase has 10 to 14 characters |
| `PskGenerator.RandomizedKeepsSeed` | merakitoolkit/merakitoolkitsupport.py:46-53 | deleting the inserted digit and symbol gives the seed back, changed only by upper-casing at the drawn position |
| `PskGenerator.ForcedRandomization` | merakitoolkit/merakitoolkitsupport.py:38-45 | when the empty candidate is chosen the randomize flag makes no difference, and the result is never empty |
| `PskGenerator.UpperWhenLowerAtPosition` | merakitoolkit/merakitoolkitsupport.py:47-50 | when the drawn upper-case position holds a lower-case letter, the passphrase contains an upper-case letter |
| `PskGenerator.UpperNotGuaranteed` | merakitoolkit/merakitoolkitsupport.py:47-50 | a concrete draw on candidate "12345678" gives "0@12345678", a randomised passphrase with no upper-case letter |
| `PskGenerator.QrPayload` | merakitoolkit/merakitoolkitsupport.py:31 | the payload is the three values plus the 15 characters of the fixed WIFI framing |
| `PskGenerator.QrRoundTrip` | merakitoolkit/merakitoolkitsupport.py:29-33 | when neither SSID nor protocol contains ';', decoding the payload gives back SSID, protocol and passphrase |
| `PskGenerator.QrPayloadAmbiguous` | merakitoolkit/merakitoolkitsupport.py:31 | without escaping, two different SSID/protocol pairs produce the same payload |
| `Dashboard.Settle` | merakitoolkit/merakitoolkit.py:170-175 | the retries end at the first reply that is not a 429, and every earlier reply was a 429 |
| `Dashboard.SettleAfterThrottle` | merakitoolkit/merakitoolkit.py:170-175 | n leading 429 replies move the settling reply exactly n places later |
| `Dashboard.Settled` | merakitoolkit/merakitoolkit.py:195-200 | the reply that ends the retries is the first reply of the trace that is not a 429, and there is none only when every reply is a 429 |
| `Dashboard.SettledAfterThrottle` | merakitoolkit/merakitoolkit.py:225-228 | prepending 429 replies leaves the settling reply unchanged |
| `Dashboard.ListOrganizations` | merakitoolkit/merakitoolkit.py:159-181 | the first reply that is not a 429 decides: an answer gives the list, a described `AsyncAPIError` gives None, anything else exits with code 2. The call keeps retrying exactly when every reply is a 429, and it never crashes |
| `Dashboard.ListCall` | merakitoolkit/merakitoolkit.py:184-237 | the first reply that is not a 429 decides: an answer gives the value, a described API error of either kind gives None, anything else exits with code 2. The call keeps retrying exactly when every reply is a 429, and it never crashes |
| `Dashboard.UpdateSsid` | merakitoolkit/merakitoolkit.py:240-268 | True exactly when the first reply that is not a 429 is an SSID carrying the submitted passphrase. False exactly when it is a described API error. Every other settled reply exits with code 2, and the call retries exactly while replies are 429s |
| `Dashboard.RetryRepeatsListOrganizations` | merakitoolkit/merakitoolkit.py:170-175 | any number of 429 replies before a trace leaves the outcome of listing organizations unchanged |
| `Dashboard.RetryRepeatsListCall` | merakitoolkit/merakitoolkit.py:223-228 | any number of 429 replies before a trace leaves the outcome of a network or SSID listing unchanged |
| `Dashboard.RetryRepeatsUpdateSsid` | merakitoolkit/merakitoolkit.py:254-259 | any number of 429 replies before a trace leaves the outcome of an update unchanged |
| `Dashboard.ReplyRules` | merakitoolkit/merakitoolkit.py:159-268 | the outcome of each kind of reply, call by call. A described `APIError` gives None from a network listing but exit 2 from the organization listing. An API error whose "errors" entry cannot be read gives exit 2. A returned SSID with another passphrase gives exit 2 |
| `Dashboard.SettledAtFirstReply` | merakitoolkit/merakitoolkit.py:170-175 | after any number of 429s the retries end at the first other reply, whatever follows it |
| `Dashboard.FirstReplyDecides` | merakitoolkit/merakitoolkit.py:159-268 | each of the four calls gives on a trace what it gives on the first reply that is not a 429 alone: later replies are never looked at |
| `Operation.ResolveApiKey` | merakitoolkit/merakitoolkit.py:63-78 | a truthy explicit key wins, else the environment variable. The run exits with code 2 exactly when neither is present |
| `Operation.ApiKeyInvariance` | merakitoolkit/merakitoolkit.py:63-78 | an empty or missing explicit key resolves as if none were given, and a given key resolves the same in every environment |
| `Operation.SmtpFallback` | merakitoolkit/merakitoolkit.py:98-113 | it crashes exactly when an SMTP option is None, `MERAKITK_SMTP` is set and a needed piece is missing. A given value is never overwritten, and only the five connection fields change |
| `Operation.SmtpFillsFromEnvironment` | merakitoolkit/merakitoolkit.py:101-113 | each None connection field receives the piece of `MERAKITK_SMTP` at its position (server, port, mode, user, pass) |
| `Operation.PskCandidates` | merakitoolkit/merakitoolkit.py:115-124 | priority: an explicit passphrase, then exactly the "::"-split pieces of `MERAKITK_PSK` (rejoining them gives the variable), then `[""]` |
| `Operation.NewOperation` | merakitoolkit/merakitoolkit.py:88-128 | a fresh record is not successful and has no targets. Its settings are the SMTP fallback's result with the passphrase replaced by `generate_psk`'s result on the candidates and the randomize flag, hence a candidate unless randomised. It crashes exactly when the SMTP fallback does |
| `Operation.ComposeEmail` | merakitoolkit/merakitoolkit.py:387-400 | an unsuccessful operation composes nothing. A successful one with a None recipient list crashes, and otherwise the message goes from the SMTP sender to the recipients, with subject SSID + " PSK changed " + date, and renders from the record's template directory |
| `Operation.EmailQrDecodes` | merakitoolkit/merakitoolkit.py:416 | the QR text of the e-mail decodes to the SSID, the default protocol "WPA2" and the new passphrase when the SSID has no ';' |
| `Operation.NewToolkit` | merakitoolkit/merakitoolkit.py:32-55 | the constructor exits with code 2 exactly when no API key resolves, crashes exactly when the key resolves and the SMTP fallback crashes, and otherwise completes. The first record has no predecessor and is not successful |
| `PskChange.FirstMatch` | merakitoolkit/merakitoolkit.py:293-303 | the slot found is the first with the requested name, and None means no slot has it |
| `PskChange.ProcessNetwork` | merakitoolkit/merakitoolkit.py:279-304 | an ineligible network yields nothing, and no request is made for it. For an eligible one the SSID listing's retry or exit passes through. A listing without the requested name yields None. At the first match, a missing `wpaEncryptionMode` exits with code 2 and otherwise the target records that slot and mode. A target carries the organization, network and SSID it was found for, and the step never crashes |
| `PskChange.TargetIsFirstMatch` | merakitoolkit/merakitoolkit.py:293-303 | the recorded slot string parses back to the first slot of the listing with the requested name, and the recorded mode is that slot's |
| `PskChange.MatchingNetworkYieldsTarget` | merakitoolkit/merakitoolkit.py:288-303 | an eligible network whose listing has the requested SSID, with an encryption mode at its first occurrence, yields a target |
| `PskChange.EmptyListingYieldsNothing` | merakitoolkit/merakitoolkit.py:288-291 | a network whose SSID listing is None or empty yields no target |
| `PskChange.NoMatchYieldsNothing` | merakitoolkit/merakitoolkit.py:292-304 | a network whose SSID listing has no SSID of the requested name yields no target |
| `PskChange.DisjointTagsExclude` | merakitoolkit/merakitoolkit.py:283-285 | a non-empty tag filter sharing no tag with the network excludes it, whatever the dashboard holds |
| `PskChange.UpdateHitsMatchedSlot` | merakitoolkit/merakitoolkit.py:247 | the update addressed by the target's slot string changes exactly the first matching SSID slot and no other |
| `PskChange.Pair` | merakitoolkit/merakitoolkit.py:345-346 | one task per network of the organization, in listing order |
| `PskChange.CollectNetworks` | merakitoolkit/merakitoolkit.py:338-346 | every task belongs to a selected organization. When collection completes, every selected organization's networks were listed. It never crashes |
| `PskChange.CollectNetworksCompletes` | merakitoolkit/merakitoolkit.py:338-346 | the organization loop completes once every selected organization's network listing completes with a list |
| `PskChange.NoneListingExits` | merakitoolkit/merakitoolkit.py:338-346 | the organization loop exits with code 2 at the first selected organization whose network listing is None or exits |
| `PskChange.GatherStep` | merakitoolkit/merakitoolkit.py:351 | the gather completes exactly when both sides do, with results in task order. An exit on either side ends it |
| `PskChange.ProcessAll` | merakitoolkit/merakitoolkit.py:351 | one result per network task. It never crashes, and any exit has code 2 |
| `PskChange.GatherIsOrderedMap` | merakitoolkit/merakitoolkit.py:351-354 | the gather completes exactly when every task does, result k is task k's result, and it exits exactly when some task exits |
| `PskChange.Present` | merakitoolkit/merakitoolkit.py:354 | the kept targets are exactly the non-None results |
| `PskChange.PresentAppend` | merakitoolkit/merakitoolkit.py:354 | filtering keeps order and multiplicity: it distributes over concatenation, drops a None and keeps a single target |
| `PskChange.DiscoverTargets` | merakitoolkit/merakitoolkit.py:333-354 | target resolution never crashes, and any exit has code 2 |
| `PskChange.FanOutMatchesSequential` | merakitoolkit/merakitoolkit.py:336-354 | the concurrent resolution and a one-network-at-a-time reference complete together and give the same targets in the same order |
| `PskChange.UpdateAll` | merakitoolkit/merakitoolkit.py:370-374 | one result per target. It never crashes, and any exit has code 2 |
| `PskChange.UpdateAllCompletes` | merakitoolkit/merakitoolkit.py:370-374 | the update gather completes exactly when every update settles without an exit, and exits exactly when one of them exits |
| `PskChange.ChangedIffConfirmed` | merakitoolkit/merakitoolkit.py:374 | `True in results` holds exactly when the dashboard confirmed the update of some target |
| `PskChange.Run` | merakitoolkit/merakitoolkit.py:271-383 | a failed precondition exits with code 2. A dry run reports a change and sends no update, and verbose without a dry run sends none and changes nothing. A live run updates every target, and the record is finalised exactly when data changed |
| `PskChange.ProcessAllIgnoresUpdates` | merakitoolkit/merakitoolkit.py:279-304 | resolving targets makes no update request: its outcome does not depend on the update replies |
| `PskChange.CollectNetworksIgnoresUpdates` | merakitoolkit/merakitoolkit.py:338-346 | collecting network tasks makes no update request |
| `PskChange.ListingRunSendsNoUpdate` | merakitoolkit/merakitoolkit.py:360-368 | with a dry run or `verbose >= 1` the whole run ends the same whatever the update replies are: no update is sent |
| `PskChange.RunTargetsAreResolution` | merakitoolkit/merakitoolkit.py:333-354 | the targets of a completed run are exactly those that resolution finds from the listed organizations, and the same as the one-network-at-a-time reference |
| `PskChange.UpdateAllIsOrderedMap` | merakitoolkit/merakitoolkit.py:370-374 | when the updates complete, result k is the update of target k with the passphrase, made against that network's replies |
| `PskChange.LiveRunUpdatesEachTarget` | merakitoolkit/merakitoolkit.py:369-374 | a completed live run sent one update per resolved target, and reports a change exactly when one of them returned True |
| `PskChange.RunCompletes` | merakitoolkit/merakitoolkit.py:333-379 | with the preconditions met, an organization list, resolved targets and, in a live run, settled updates, the run completes and reports exactly the resolved targets. A dry run reports a change, and a live run reports one exactly when some update returned True |
| `PskChange.RunExits` | merakitoolkit/merakitoolkit.py:333-383 | with the preconditions met, the run exits with code 2 when the organization listing exits or gives None, when target resolution exits, and in a live run when an update exits |
| `PskChange.PreconditionsGateRemote` | merakitoolkit/merakitoolkit.py:308-317 | a failed precondition gives exit 2 whatever the dashboard holds. With the preconditions met, the run waits on the organization request |
| `PskChange.LiveRunSuccess` | merakitoolkit/merakitoolkit.py:369-379 | a live run succeeds exactly when some update was confirmed, and with no target it changes nothing |
| `CommandLine.NormalizeTemplatePath` | merakitoolkit/merakitoolkitparser.py:150-151 | the template path ends with "/", extends the given path by at most one character, and is left alone when it already ends with "/" |
| `CommandLine.NormalizeIdempotent` | merakitoolkit/merakitoolkitparser.py:150-151 | normalising a normalised template path changes nothing |
| `CommandLine.CheckPsk` | merakitoolkit/merakitoolkitparser.py:148-162 | an empty template path crashes. With recipients, a missing template exits with code 2. Otherwise only the template path changes, and with recipients both templates exist there |
| `CommandLine.Parse` | merakitoolkit/merakitoolkitparser.py:142-167 | no argument gives no namespace and code 1, and otherwise code 0. Rejected arguments exit with code 2, and a namespace without a subcommand crashes. A `psk` namespace completes with the checked options, or exits or crashes as the check does |
| `CommandLine.ParsedPskIsChecked` | merakitoolkit/merakitoolkitparser.py:148-162 | a parsed `psk` namespace differs from the parsed options only in its slash-terminated template path, which holds both templates whenever recipients are given |
| `Program.AttemptInjective` | merakitoolkit/__main__.py:34-42 | the directories tried by the makedirs loop are pairwise different |
| `Program.FreeTemplateDir` | merakitoolkit/__main__.py:34-42 | the directory created is the first attempt that does not exist yet, and every earlier attempt exists. The loop ends after at most as many attempts as existing paths |
| `Program.CopyPlan` | merakitoolkit/__main__.py:44-63 | every packaged resource except `__init__.py` and `__pycache__` is copied to the directory under its own name, and nothing else is |
| `Program.FirstTemplateDirIsDefault` | merakitoolkit/__main__.py:34-57 | templates generated into the first directory are where a later `psk` run looks by default, so they pass its template check |
| `Program.PskBranch` | merakitoolkit/__main__.py:23-30 | the run uses the constructor's operation record. The branch completes whenever the constructor and the run do, and otherwise ends as the first of them that failed. When recipients were given, the e-mail is the one `send_email_psk` composes from the run's record, so it exists exactly when the run succeeded and goes to those recipients. Composing never crashes here (delivery is left out) |
| `Program.RunMain` | merakitoolkit/__main__.py:18-65 | `main` returns the parser's code, and a parser exit is the program's exit. A `psk` namespace runs the `psk` branch and ends as it does; a `psktemplategen` namespace completes with code 0, copying into the first attempted directory that did not exist. An e-mail follows only a change, and a namespace without a subcommand crashes |

## Left out

- Connecting to the dashboard (`connect`) and the session's context manager are
  left out. They are I/O, and the run starts at the organization request.
- The `Retry-After` sleep is left out. Only the retry of the same request is
  modelled; the delay value and a malformed header are not.
- Delivery of the e-mail is left out: MIME assembly, Jinja rendering, the QR
  image file, the image attachments, the SMTP delivery modes and the QR file
  cleanup are all I/O. The success gate, the headers, the subject and the QR
  text are modelled (`Operation.ComposeEmail`); today's date is a parameter.
  `merakitoolkitemail.py` is not part of this model.
- Printing and logging are left out: the tables, messages and verbosity levels
  2 and 3.
- argparse's own parsing is taken as given. Its rejection is the `Rejected`
  outcome; its help action and defaults are not modelled.
- The content of the template copy is left out. Text resources are read with
  newline translation and written in text mode as UTF-8; only the binary
  fallback copies bytes unchanged. The model records which resource goes
  where, not what is written.
- The xkcdpass word list and the acrostic passphrase are left out. The
  generated segment is any word of 8 to 12 characters.
- `Dashboard.Settle`: the model retries without bound. Each 429 retry in the
  program is a nested `return await` of the same call (merakitoolkit.py lines
  175, 200, 228 and 259), so about a thousand consecutive 429 replies exceed
  Python's recursion limit. The resulting `RecursionError` reaches the broad
  handler and ends the run with exit code 2; the model still retries there.
- `Text.AsciiUpper`: Python's `str.upper` on non-ASCII characters, which can
  change a string's length, is not modelled. Only ASCII letters change case.
- `Dashboard.ListCall`: one contract covers both `get_organization_networks`
  and `get_network_wireless_ssids`. They differ only in the messages they
  print.
- `PskChange.Run`: a `KeyError` for any other missing field of an API answer
  is not modelled. Answers are typed records, and only the optional
  `wpaEncryptionMode` can be absent.
- `PskChange.Run`: the `settings is None` check is not modelled, because it
  cannot fail once a toolkit exists.
- `Program.RunMain`: `os.makedirs` failures other than an existing directory
  (permissions, a missing package resource) are not modelled.
- `Program.RunMain`: the Windows event-loop policy switch is not modelled.

=== FILE: command_line.dfy ===
/** `merakitoolkitparser.parser`: what the parsed command line becomes after
    the checks the parser adds to argparse, and the return code it hands to
    the program. */
module CommandLine {

  import opened Outcomes
  import opened Operation

  /** The subcommand chosen on the command line. `NoCommand` is a namespace
      without a `command` attribute: the subparsers are optional. */
  datatype Command = Psk(settings: Settings) | TemplateGen | NoCommand

  /** The namespace argparse builds: the global `--apikey` and the command. */
  datatype Namespace = Namespace(apikey: Option<string>, command: Command)

  /** What `parse_args` does with the arguments: it either rejects them
      (`MyParser.error` prints the help and exits with code 2) or returns a
      namespace. */
  datatype ParseOutcome = Rejected | Parsed(ns: Namespace)

  /** Default of `--emailtemplate`. */
  const DefaultTemplatePath: string := "./merakitoolkit/templates/psk/default/"

  /** The two templates an e-mail needs, looked up inside the template path. */
  const TemplateFiles: seq<string> := ["templatehtml.j2", "templatetxt.j2"]

  /** The template path always ends with "/" after parsing: the shortest
      extension of the given path that does. */
  function NormalizeTemplatePath(path: string): (r: string)
    requires path != ""
    ensures r != "" && r[|r| - 1] == '/'
    ensures path <= r && |r| <= |path| + 1
    ensures path[|path| - 1] == '/' ==> r == path
  {
    if path[|path| - 1] != '/' then path + "/" else path
  }

  lemma NormalizeIdempotent(path: string)
    requires path != ""
    ensures NormalizeTemplatePath(NormalizeTemplatePath(path)) == NormalizeTemplatePath(path)
  {
  }

  /** Both templates exist under `dir` in the file system `files`. */
  predicate TemplatesPresent(dir: string, files: set<string>) {
    forall t :: t in TemplateFiles ==> dir + t in files
  }

  /** The check made on the `psk` options: the template path gets its
      trailing "/" (indexing `[-1]` of an empty path raises `IndexError`,
      which nothing catches), and with a non-empty recipient list both
      templates must exist there, or the program exits with code 2. */
  function CheckPsk(s: Settings, files: set<string>): (r: Step<Settings>)
    ensures r.Crashed? <==> s.emailtemplate == ""
    ensures r.Exited? ==> r.code == FatalCode
    ensures r.Exited? <==>
      && s.emailtemplate != ""
      && TruthyList(s.email)
      && !TemplatesPresent(NormalizeTemplatePath(s.emailtemplate), files)
    ensures r.Done? ==> r.value == s.(emailtemplate := NormalizeTemplatePath(s.emailtemplate))
    ensures r.Done? && TruthyList(s.email) ==> TemplatesPresent(r.value.emailtemplate, files)
    ensures !r.Unsettled?
  {
    if s.emailtemplate == "" then Crashed
    else
      var dir := NormalizeTemplatePath(s.emailtemplate);
      if TruthyList(s.email) && (dir + TemplateFiles[0] !in files || dir + TemplateFiles[1] !in files) then
        Fatal()
      else
        Done(s.(emailtemplate := dir))
  }

  /** `parser()`: with no argument at all (`argv` holds only the program name)
      the help is printed and the return code is 1 without a namespace;
      otherwise a namespace with return code 0. Reading `args.command` on a
      namespace without a subcommand raises `AttributeError`. */
  function Parse(argvLength: nat, outcome: ParseOutcome, files: set<string>): (r: Step<(Option<Namespace>, int)>)
    requires argvLength >= 1
    ensures argvLength == 1 ==> r == Done((None, 1))
    ensures r.Done? ==> (r.value.0.None? <==> argvLength == 1)
    ensures r.Done? ==> r.value.1 == (if argvLength == 1 then 1 else 0)
    ensures r.Done? && r.value.0.Some? ==> outcome.Parsed? && r.value.0.value.apikey == outcome.ns.apikey
    ensures argvLength > 1 && outcome.Rejected? ==> r == Exited(2)
    ensures argvLength > 1 && outcome.Parsed? && outcome.ns.command.NoCommand? ==> r.Crashed?
    ensures argvLength > 1 && outcome.Parsed? && outcome.ns.command.TemplateGen? ==> r == Done((Some(outcome.ns), 0))
    ensures argvLength > 1 && outcome.Parsed? && outcome.ns.command.Psk? ==>
      var c := CheckPsk(outcome.ns.command.settings, files);
      && (c.Done? ==> r == Done((Some(outcome.ns.(command := Psk(c.value))), 0)))
      && (c.Exited? ==> r == Exited(2))
      && (c.Crashed? ==> r.Crashed?)
    ensures !r.Unsettled?
  {
    if argvLength == 1 then Done((None, 1))
    else match outcome
      case Rejected => Fatal()
      case Parsed(ns) =>
        match ns.command
        case NoCommand => Crashed
        case TemplateGen => Done((Some(ns), 0))
        case Psk(s) =>
          var checked :- CheckPsk(s, files);
          Done((Some(ns.(command := Psk(checked))), 0))
  }

  /** A `psk` namespace that leaves the parser names a template directory
      ending in "/" that holds both templates whenever recipients are given,
      and differs from the parsed options in that path only. */
  lemma ParsedPskIsChecked(argvLength: nat, outcome: ParseOutcome, files: set<string>)
    requires argvLength >= 1
    requires Parse(argvLength, outcome, files).Done?
    requires Parse(argvLength, outcome, files).value.0.Some?
    requires Parse(argvLength, outcome, files).value.0.value.command.Psk?
    ensures var s := Parse(argvLength, outcome, files).value.0.value.command.settings;
            && outcome.Parsed? && outcome.ns.command.Psk?
            && s == outcome.ns.command.settings.(emailtemplate := s.emailtemplate)
            && s.emailtemplate != "" && s.emailtemplate[|s.emailtemplate| - 1] == '/'
            && (TruthyList(s.email) ==> TemplatesPresent(s.emailtemplate, files))
  {
  }
}

=== FILE: dashboard.dfy ===
/** The Meraki dashboard as plain data: organizations, networks, SSIDs, the
    replies one request can receive, and the outcome rules of the four
    retry-wrapped calls of `MerakiToolkit`. */
module Dashboard {

  import opened Outcomes
  import opened Text

  datatype Organization = Organization(id: string, name: string)

  datatype Network = Network(id: string, name: string, tags: seq<string>)

  /** A wireless SSID slot; `wpaEncryptionMode` is absent on open SSIDs. */
  datatype Ssid = Ssid(name: string, wpaEncryptionMode: Option<string>, psk: string)

  /** A network selected for the PSK change, as recorded by `process_network`:
      the SSID slot is kept as the decimal string `str(position)`. */
  datatype Target = Target(
    organization: string,
    name: string,
    id: string,
    ssidPosition: string,
    ssidName: string,
    wpaEncryptionMode: string)

  /** One reply of the dashboard to one request:
      - Answer: the call returned a value;
      - TooManyRequests: `AsyncAPIError` with status 429;
      - AsyncApiError: `AsyncAPIError` with any other status;
      - ApiError: the synchronous `APIError`;
      - OtherError: any other exception.
      `described` says whether `err.message["errors"]`, which the handlers
      print, can be read. When it cannot (no such entry, or a message that is
      not a mapping) the exception is raised inside the handler, escapes the
      call, and the run's broad handler turns it into exit code 2. */
  datatype Reply<+T> =
    | Answer(value: T)
    | TooManyRequests
    | AsyncApiError(described: bool)
    | ApiError(described: bool)
    | OtherError

  /** A trace of `n` rate-limit replies. */
  function Throttled<T>(n: nat): (t: seq<Reply<T>>)
    ensures |t| == n
    ensures forall i :: 0 <= i < n ==> t[i].TooManyRequests?
  {
    if n == 0 then [] else [TooManyRequests] + Throttled(n - 1)
  }

  /** Index of the reply that ends the retries: the first one that is not a
      429, or `|trace|` when every reply is a 429. */
  function Settle<T>(trace: seq<Reply<T>>): (k: nat)
    ensures k <= |trace|
    ensures forall i :: 0 <= i < k ==> trace[i].TooManyRequests?
    ensures k < |trace| ==> !trace[k].TooManyRequests?
    decreases |trace|
  {
    if |trace| == 0 || !trace[0].TooManyRequests? then 0 else 1 + Settle(trace[1..])
  }

  /** Leading 429 replies are skipped: the same request is sent again. */
  lemma {:induction false} SettleAfterThrottle<T>(n: nat, rest: seq<Reply<T>>)
    ensures Settle(Throttled<T>(n) + rest) == n + Settle(rest)
    decreases n
  {
    if n > 0 {
      SettleAfterThrottle<T>(n - 1, rest);
      var t := Throttled<T>(n) + rest;
      assert t[0].TooManyRequests?;
      assert t[1..] == Throttled<T>(n - 1) + rest;
      assert Settle(t) == 1 + Settle(t[1..]);
    } else {
      assert Throttled<T>(0) + rest == rest;
    }
  }

  /** The reply that ends the retries, or None while every reply is a 429. */
  function Settled<T>(trace: seq<Reply<T>>): (r: Option<Reply<T>>)
    ensures r.None? <==> forall i :: 0 <= i < |trace| ==> trace[i].TooManyRequests?
    ensures r.Some? ==> !r.value.TooManyRequests? && r.value in trace
    ensures r.Some? ==> r.value == trace[Settle(trace)]
  {
    var k := Settle(trace);
    if k == |trace| then None else Some(trace[k])
  }

  /** Any number of leading 429 replies leaves the settled reply unchanged. */
  lemma SettledAfterThrottle<T>(n: nat, trace: seq<Reply<T>>)
    ensures Settled(Throttled<T>(n) + trace) == Settled(trace)
  {
    SettleAfterThrottle(n, trace);
    var t := Throttled<T>(n) + trace;
    var k := Settle(trace);
    if k < |trace| {
      assert t[n + k] == trace[k];
    }
  }

  /** `get_organizations`: a 429 retries; another described `AsyncAPIError`
      gives None; a synchronous `APIError` has no branch of its own and, like
      any other exception, ends the program with exit code 2. */
  function ListOrganizations(trace: seq<Reply<seq<Organization>>>): (r: Step<Option<seq<Organization>>>)
    ensures r.Unsettled? <==> forall i :: 0 <= i < |trace| ==> trace[i].TooManyRequests?
    ensures r.Done? && r.value.Some? <==> Settled(trace).Some? && Settled(trace).value.Answer?
    ensures r.Done? && r.value.Some? ==> Settled(trace) == Some(Answer(r.value.value))
    ensures r == Done(None) <==> Settled(trace) == Some(AsyncApiError(true))
    ensures r.Exited? ==> r.code == FatalCode
    ensures !r.Crashed?
  {
    match Settled(trace)
    case None => Unsettled
    case Some(reply) =>
      match reply
      case Answer(orgs) => Done(Some(orgs))
      case AsyncApiError(described) => if described then Done(None) else Fatal()
      case _ => Fatal()
  }

  /** `get_organization_networks` and `get_network_wireless_ssids` share one
      rule: a 429 retries; either described API error gives None; any other
      exception ends the program with exit code 2. */
  function ListCall<T>(trace: seq<Reply<T>>): (r: Step<Option<T>>)
    ensures r.Unsettled? <==> forall i :: 0 <= i < |trace| ==> trace[i].TooManyRequests?
    ensures r.Done? && r.value.Some? <==> Settled(trace).Some? && Settled(trace).value.Answer?
    ensures r.Done? && r.value.Some? ==> Settled(trace) == Some(Answer(r.value.value))
    ensures r == Done(None) <==>
      Settled(trace) == Some(AsyncApiError(true)) || Settled(trace) == Some(ApiError(true))
    ensures r.Exited? ==> r.code == FatalCode
    ensures !r.Crashed?
  {
    match Settled(trace)
    case None => Unsettled
    case Some(reply) =>
      match reply
      case Answer(v) => Done(Some(v))
      case AsyncApiError(described) => if described then Done(None) else Fatal()
      case ApiError(described) => if described then Done(None) else Fatal()
      case _ => Fatal()
  }

  function ListNetworks(trace: seq<Reply<seq<Network>>>): (r: Step<Option<seq<Network>>>) {
    ListCall(trace)
  }

  function ListSsids(trace: seq<Reply<seq<Ssid>>>): (r: Step<Option<seq<Ssid>>>) {
    ListCall(trace)
  }

  /** `update_network_wireless_ssid`: True only when the returned SSID carries
      the submitted passphrase; a returned SSID with another passphrase raises
      `ValueError`, which the broad handler turns into exit code 2; either
      described API error gives False. */
  function UpdateSsid(trace: seq<Reply<Ssid>>, psk: string): (r: Step<bool>)
    ensures r.Unsettled? <==> forall i :: 0 <= i < |trace| ==> trace[i].TooManyRequests?
    ensures r == Done(true) <==>
      Settled(trace).Some? && Settled(trace).value.Answer? && Settled(trace).value.value.psk == psk
    ensures r == Done(true) ==> exists ssid :: Answer(ssid) in trace && ssid.psk == psk
    ensures r == Done(false) <==>
      Settled(trace) == Some(AsyncApiError(true)) || Settled(trace) == Some(ApiError(true))
    ensures r.Exited? ==> r.code == FatalCode
    ensures !r.Crashed?
  {
    match Settled(trace)
    case None => Unsettled
    case Some(reply) =>
      match reply
      case Answer(ssid) => if ssid.psk == psk then Done(true) else Fatal()
      case AsyncApiError(described) => if described then Done(false) else Fatal()
      case ApiError(described) => if described then Done(false) else Fatal()
      case _ => Fatal()
  }

  /** Every call gives the same outcome after any number of 429 replies as
      without them: the retry repeats the same request. */
  lemma RetryRepeatsListOrganizations(n: nat, trace: seq<Reply<seq<Organization>>>)
    ensures ListOrganizations(Throttled(n) + trace) == ListOrganizations(trace)
  {
    SettledAfterThrottle(n, trace);
  }

  lemma RetryRepeatsListCall<T>(n: nat, trace: seq<Reply<T>>)
    ensures ListCall(Throttled(n) + trace) == ListCall(trace)
  {
    SettledAfterThrottle(n, trace);
  }

  lemma RetryRepeatsUpdateSsid(n: nat, trace: seq<Reply<Ssid>>, psk: string)
    ensures UpdateSsid(Throttled(n) + trace, psk) == UpdateSsid(trace, psk)
  {
    SettledAfterThrottle(n, trace);
  }

  /** The outcome of one settled reply, call by call. */
  lemma ReplyRules(orgs: seq<Organization>, nets: seq<Network>, ssid: Ssid, psk: string, described: bool)
    ensures ListOrganizations([Answer(orgs)]) == Done(Some(orgs))
    ensures ListOrganizations([AsyncApiError(described)]) == (if described then Done(None) else Exited(2))
    ensures ListOrganizations([ApiError(described)]) == Exited(2)
    ensures ListOrganizations([OtherError]) == Exited(2)
    ensures ListNetworks([Answer(nets)]) == Done(Some(nets))
    ensures ListNetworks([AsyncApiError(described)]) == (if described then Done(None) else Exited(2))
    ensures ListNetworks([ApiError(described)]) == (if described then Done(None) else Exited(2))
    ensures ListNetworks([OtherError]) == Exited(2)
    ensures UpdateSsid([Answer(ssid)], psk) == (if ssid.psk == psk then Done(true) else Exited(2))
    ensures UpdateSsid([AsyncApiError(described)], psk) == (if described then Done(false) else Exited(2))
    ensures UpdateSsid([ApiError(described)], psk) == (if described then Done(false) else Exited(2))
    ensures UpdateSsid([OtherError], psk) == Exited(2)
  {
  }

  /** The retries end at the first reply that is not a 429, whatever follows
      it in the trace. */
  lemma SettledAtFirstReply<T>(n: nat, reply: Reply<T>, rest: seq<Reply<T>>)
    requires !reply.TooManyRequests?
    ensures Settled(Throttled<T>(n) + [reply] + rest) == Some(reply)
    ensures Settled([reply]) == Some(reply)
  {
    var t := Throttled<T>(n) + [reply] + rest;
    assert t == Throttled<T>(n) + ([reply] + rest);
    SettleAfterThrottle(n, [reply] + rest);
    assert t[n] == reply;
  }

  /** Each call is decided by the first reply that is not a 429: what comes
      after it in the trace is never looked at. */
  lemma FirstReplyDecides(n: nat, psk: string,
                          org: Reply<seq<Organization>>, orgRest: seq<Reply<seq<Organization>>>,
                          net: Reply<seq<Network>>, netRest: seq<Reply<seq<Network>>>,
                          upd: Reply<Ssid>, updRest: seq<Reply<Ssid>>)
    requires !org.TooManyRequests? && !net.TooManyRequests? && !upd.TooManyRequests?
    ensures ListOrganizations(Throttled(n) + [org] + orgRest) == ListOrganizations([org])
    ensures ListCall(Throttled(n) + [net] + netRest) == ListCall([net])
    ensures UpdateSsid(Throttled(n) + [upd] + updRest, psk) == UpdateSsid([upd], psk)
  {
    SettledAtFirstReply(n, org, orgRest);
    SettledAtFirstReply(n, net, netRest);
    SettledAtFirstReply(n, upd, updRest);
  }

  /** The dashboard's side of `updateNetworkWirelessSsid(id, number, psk=...)`:
      the slot named by the decimal `number` receives the passphrase; a number
      that names no slot is rejected. */
  function ApplyPsk(ssids: seq<Ssid>, number: string, psk: string): (r: Option<seq<Ssid>>)
    ensures r.Some? ==> |r.value| == |ssids|
  {
    if number != "" && AllDigits(number) && ParseNat(number) < |ssids| then
      var slot := ParseNat(number);
      Some(ssids[slot := ssids[slot].(psk := psk)])
    else
      None
  }
}

=== FILE: operation.dfy ===
/** Construction of a `MerakiToolkit`: API key resolution, the operation
    record built by the `current_operation` setter (SMTP fallback from the
    environment and the PSK choice), and the success gate of the e-mail. */
module Operation {

  import opened Outcomes
  import opened Text
  import opened Dashboard
  import PskGenerator

  /** The process environment, `os.environ`. */
  type Env = map<string, string>

  const ApiKeyVariable: string := "MERAKI_DASHBOARD_API_KEY"
  const SmtpVariable: string := "MERAKITK_SMTP"
  const PskVariable: string := "MERAKITK_PSK"

  /** The options of the `psk` command, as `vars()` of the parsed namespace
      without `apikey` (and without `command`, which is always "psk" here). */
  datatype Settings = Settings(
    tags: Option<seq<string>>,
    verbose: nat,
    dryrun: bool,
    passphrase: Option<string>,
    passrandomize: bool,
    email: Option<seq<string>>,
    emailtemplate: string,
    organization: Option<seq<string>>,
    network: Option<seq<string>>,
    ssid: string,
    smtpSender: Option<string>,
    smtpServer: Option<string>,
    smtpPort: Option<string>,
    smtpMode: Option<string>,
    smtpUser: Option<string>,
    smtpPass: Option<string>)

  /** The `_current_operation` dictionary. */
  datatype OperationRecord = OperationRecord(
    settings: Settings,
    success: bool,
    networksToProcess: Option<seq<Target>>)

  /** The state of a `MerakiToolkit` object after `__init__`. */
  datatype Toolkit = Toolkit(
    apikey: string,
    current: OperationRecord,
    last: Option<OperationRecord>)

  /** Python truthiness of an optional string: None and "" are false. */
  predicate Truthy(s: Option<string>) {
    s.Some? && s.value != ""
  }

  /** Python truthiness of an optional list: None and [] are false. */
  predicate TruthyList<T>(s: Option<seq<T>>) {
    s.Some? && |s.value| > 0
  }

  // ---------------------------------------------------------------------------
  // API key

  /** The `apikey` setter: a truthy explicit key wins, then the environment
      variable (whatever its value), else exit code 2. */
  function ResolveApiKey(explicit: Option<string>, env: Env): (r: Step<string>)
    ensures r.Done? || r == Exited(2)
    ensures r.Exited? <==> !Truthy(explicit) && ApiKeyVariable !in env
    ensures Truthy(explicit) ==> r == Done(explicit.value)
    ensures r.Done? && !Truthy(explicit) ==> r.value == env[ApiKeyVariable]
  {
    if Truthy(explicit) then Done(explicit.value)
    else if ApiKeyVariable in env then Done(env[ApiKeyVariable])
    else Fatal()
  }

  /** An empty or missing explicit key counts as absent, and a given key
      makes the environment irrelevant. */
  lemma ApiKeyInvariance(explicit: Option<string>, env: Env, other: Env)
    ensures !Truthy(explicit) ==> ResolveApiKey(explicit, env) == ResolveApiKey(None, env)
    ensures Truthy(explicit) ==> ResolveApiKey(explicit, env) == ResolveApiKey(explicit, other)
    ensures ResolveApiKey(Some(""), env) == ResolveApiKey(None, env)
  {
  }

  // ---------------------------------------------------------------------------
  // SMTP fallback

  /** At least one option whose name contains "smtp" is None. */
  predicate SmtpIncomplete(s: Settings) {
    s.smtpSender.None? || s.smtpServer.None? || s.smtpPort.None?
    || s.smtpMode.None? || s.smtpUser.None? || s.smtpPass.None?
  }

  /** Some field that would be read from `pieces` has no piece at its
      position: server 0, port 1, mode 2, user 3, pass 4. */
  predicate MissingPiece(s: Settings, pieces: seq<string>) {
    (s.smtpServer.None? && |pieces| <= 0)
    || (s.smtpPort.None? && |pieces| <= 1)
    || (s.smtpMode.None? && |pieces| <= 2)
    || (s.smtpUser.None? && |pieces| <= 3)
    || (s.smtpPass.None? && |pieces| <= 4)
  }

  function FillFrom(given: Option<string>, pieces: seq<string>, k: nat): (filled: Option<string>)
    requires given.Some? || k < |pieces|
  {
    if given.Some? then given else Some(pieces[k])
  }

  /** Only the five SMTP connection fields differ between `a` and `b`. */
  predicate SameExceptSmtp(a: Settings, b: Settings) {
    a.(smtpServer := b.smtpServer, smtpPort := b.smtpPort, smtpMode := b.smtpMode,
       smtpUser := b.smtpUser, smtpPass := b.smtpPass) == b
  }

  /** The SMTP fallback of the `current_operation` setter. When an SMTP option
      is None and `MERAKITK_SMTP` is set, its "::"-separated pieces fill the
      None fields by position; an absent piece raises `IndexError`, which
      nothing catches. A given value is never overwritten. */
  function SmtpFallback(s: Settings, env: Env): (r: Step<Settings>)
    ensures r.Done? || r.Crashed?
    ensures r.Crashed? <==> SmtpIncomplete(s) && SmtpVariable in env && MissingPiece(s, Split(env[SmtpVariable]))
    ensures r.Done? ==> SameExceptSmtp(s, r.value)
    ensures r.Done? ==>
      && (s.smtpServer.Some? ==> r.value.smtpServer == s.smtpServer)
      && (s.smtpPort.Some? ==> r.value.smtpPort == s.smtpPort)
      && (s.smtpMode.Some? ==> r.value.smtpMode == s.smtpMode)
      && (s.smtpUser.Some? ==> r.value.smtpUser == s.smtpUser)
      && (s.smtpPass.Some? ==> r.value.smtpPass == s.smtpPass)
    ensures SmtpVariable !in env ==> r == Done(s)
  {
    if !SmtpIncomplete(s) || SmtpVariable !in env then Done(s)
    else
      var pieces := Split(env[SmtpVariable]);
      if MissingPiece(s, pieces) then Crashed
      else Done(s.(
        smtpServer := FillFrom(s.smtpServer, pieces, 0),
        smtpPort := FillFrom(s.smtpPort, pieces, 1),
        smtpMode := FillFrom(s.smtpMode, pieces, 2),
        smtpUser := FillFrom(s.smtpUser, pieces, 3),
        smtpPass := FillFrom(s.smtpPass, pieces, 4)))
  }

  /** A None field is filled with the piece at its position of the variable. */
  lemma SmtpFillsFromEnvironment(s: Settings, env: Env)
    requires SmtpVariable in env && SmtpFallback(s, env).Done?
    ensures var pieces := Split(env[SmtpVariable]);
            var r := SmtpFallback(s, env).value;
            && (s.smtpServer.None? ==> r.smtpServer == Some(pieces[0]))
            && (s.smtpPort.None? ==> r.smtpPort == Some(pieces[1]))
            && (s.smtpMode.None? ==> r.smtpMode == Some(pieces[2]))
            && (s.smtpUser.None? ==> r.smtpUser == Some(pieces[3]))
            && (s.smtpPass.None? ==> r.smtpPass == Some(pieces[4]))
  {
  }

  // ---------------------------------------------------------------------------
  // PSK candidates

  /** The list handed to `generate_psk`: an explicit passphrase (even ""), else
      the pieces of `MERAKITK_PSK`, else `[""]` (which asks for a generated one). */
  function PskCandidates(passphrase: Option<string>, env: Env): (c: seq<string>)
    ensures |c| >= 1
    ensures passphrase.Some? ==> c == [passphrase.value]
    ensures passphrase.None? && PskVariable in env ==> c == Split(env[PskVariable])
    ensures passphrase.None? && PskVariable in env ==> Join(c) == env[PskVariable]
    ensures passphrase.None? && PskVariable !in env ==> c == [""]
  {
    if passphrase.None? then
      if PskVariable in env then
        JoinSplit(env[PskVariable]);
        Split(env[PskVariable])
      else [""]
    else [passphrase.value]
  }

  // ---------------------------------------------------------------------------
  // The operation record

  /** The `current_operation` setter: a fresh record, not yet successful,
      whose settings are the input's with the SMTP fallback applied and the
      passphrase replaced by the generated one. */
  function NewOperation(s: Settings, env: Env, d: PskGenerator.Draws): (r: Step<OperationRecord>)
    ensures r.Done? || r.Crashed?
    ensures r.Crashed? <==> SmtpFallback(s, env).Crashed?
    ensures r.Done? ==> !r.value.success && r.value.networksToProcess.None?
    ensures r.Done? ==> r.value.settings.passphrase.Some?
    ensures r.Done? ==>
      r.value.settings.passphrase == Some(PskGenerator.GeneratePsk(PskCandidates(s.passphrase, env), s.passrandomize, d))
    ensures r.Done? ==> r.value.settings.passphrase.value in PskCandidates(s.passphrase, env)
                        || PskGenerator.Randomizes(PskCandidates(s.passphrase, env), s.passrandomize, d)
    ensures r.Done? ==> SameExceptSmtp(s.(passphrase := r.value.settings.passphrase), r.value.settings)
    ensures r.Done? ==>
      r.value.settings
        == SmtpFallback(s, env).value.(passphrase := Some(PskGenerator.GeneratePsk(PskCandidates(s.passphrase, env), s.passrandomize, d)))
  {
    match SmtpFallback(s, env)
    case Done(filled) =>
      var psk := PskGenerator.GeneratePsk(PskCandidates(s.passphrase, env), s.passrandomize, d);
      Done(OperationRecord(filled.(passphrase := Some(psk)), false, None))
    case _ => Crashed
  }

  /** `MerakiToolkit.__init__`: resolve the API key (exit code 2 when there is
      none), then build the first operation record, which has no predecessor. */
  function NewToolkit(apikey: Option<string>, s: Settings, env: Env, d: PskGenerator.Draws): (r: Step<Toolkit>)
    ensures r.Exited? <==> ResolveApiKey(apikey, env).Exited?
    ensures r.Exited? ==> r == Exited(2)
    ensures r.Crashed? <==> ResolveApiKey(apikey, env).Done? && NewOperation(s, env, d).Crashed?
    ensures r.Done? <==> ResolveApiKey(apikey, env).Done? && NewOperation(s, env, d).Done?
    ensures !r.Unsettled?
    ensures r.Done? ==> r.value.last.None? && !r.value.current.success
    ensures r.Done? ==> Done(r.value.apikey) == ResolveApiKey(apikey, env)
    ensures r.Done? ==> Done(r.value.current) == NewOperation(s, env, d)
  {
    match ResolveApiKey(apikey, env)
    case Done(key) =>
      (match NewOperation(s, env, d)
       case Done(op) => Done(Toolkit(key, op, None))
       case _ => Crashed)
    case _ => Fatal()
  }

  // ---------------------------------------------------------------------------
  // The e-mail

  /** The message `send_email_psk` composes before delivery: the `From` and
      `Bcc` headers, the subject, the template directory the bodies are
      rendered from, and the text of the QR image. */
  datatype EmailDraft = EmailDraft(
    sender: Option<string>,
    recipients: seq<string>,
    subject: string,
    templateDir: string,
    qr: string)

  /** An f-string renders None as "None". */
  function Rendered(value: Option<string>): (text: string)
    ensures value.Some? ==> text == value.value
  {
    if value.Some? then value.value else "None"
  }

  /** `send_email_psk` up to delivery, with `today` the date as "%d/%m/%Y".
      An unsuccessful operation composes nothing; joining a None recipient
      list raises `TypeError`, which nothing catches. The QR image encodes the
      SSID and passphrase with the default protocol. */
  function ComposeEmail(op: OperationRecord, today: string): (r: Step<Option<EmailDraft>>)
    ensures r == Done(None) <==> !op.success
    ensures r.Crashed? <==> op.success && op.settings.email.None?
    ensures !r.Exited? && !r.Unsettled?
    ensures r.Done? && r.value.Some? ==>
      && r.value.value.recipients == op.settings.email.value
      && r.value.value.sender == op.settings.smtpSender
      && r.value.value.subject == op.settings.ssid + " PSK changed " + today
      && r.value.value.templateDir == op.settings.emailtemplate
    ensures r.Done? && r.value.Some? ==>
      r.value.value.qr == PskGenerator.QrPayload(op.settings.ssid, Rendered(op.settings.passphrase), PskGenerator.DefaultWifiProtocol)
  {
    if !op.success then Done(None)
    else if op.settings.email.None? then Crashed
    else
      var s := op.settings;
      var psk := Rendered(s.passphrase);
      Done(Some(EmailDraft(
        s.smtpSender,
        s.email.value,
        s.ssid + " PSK changed " + today,
        s.emailtemplate,
        PskGenerator.QrPayload(s.ssid, psk, PskGenerator.DefaultWifiProtocol))))
  }

  /** A phone scanning the e-mailed QR image joins the SSID with the new
      passphrase under the default protocol, provided the SSID has no ';'. */
  lemma EmailQrDecodes(op: OperationRecord, today: string)
    requires ComposeEmail(op, today).Done? && ComposeEmail(op, today).value.Some?
    requires op.settings.passphrase.Some? && ';' !in op.settings.ssid
    ensures PskGenerator.DecodeQr(ComposeEmail(op, today).value.value.qr)
      == Some((op.settings.ssid, PskGenerator.DefaultWifiProtocol, op.settings.passphrase.value))
  {
    assert ';' !in PskGenerator.DefaultWifiProtocol;
    PskGenerator.QrRoundTrip(op.settings.ssid, op.settings.passphrase.value, PskGenerator.DefaultWifiProtocol);
  }
}

=== FILE: outcomes.dfy ===
/** Shared result shapes: Python's `None`, and how a step of the program ends. */
module Outcomes {

  /** A value that may be Python's `None`. */
  datatype Option<+T> = None | Some(value: T)

  /** How one step of the program ends.
      - Done: the step returned normally with a value;
      - Exited: the step called `sys.exit(code)`;
      - Crashed: an exception escaped every handler (the interpreter stops);
      - Unsettled: the step is still retrying after rate-limit replies when
        the modelled reply trace runs out. */
  datatype Step<+T> = Done(value: T) | Exited(code: int) | Crashed | Unsettled {

    predicate IsFailure() {
      !Done?
    }

    /** The same ending, for a step of another value type. */
    function PropagateFailure<U>(): (r: Step<U>)
      requires IsFailure()
    {
      match this
      case Exited(code) => Exited(code)
      case Crashed => Crashed
      case Unsettled => Unsettled
    }

    function Extract(): (v: T)
      requires Done?
    {
      value
    }
  }

  /** The exit status the program uses for every fatal condition it catches. */
  const FatalCode: int := 2

  function Fatal<T>(): (r: Step<T>) {
    Exited(FatalCode)
  }
}

=== FILE: program.dfy ===
/** `__main__.main`: the `psk` command builds a toolkit, runs the PSK change
    and hands over to the e-mail; the `psktemplategen` command copies the
    packaged default templates into the first free local directory. */
module Program {

  import opened Outcomes
  import opened Text
  import opened Operation
  import opened PskChange
  import opened CommandLine
  import PskGenerator

  // ---------------------------------------------------------------------------
  // psktemplategen

  /** The local directory the default templates are copied into first. */
  const TemplateBase: string := "./merakitoolkit/templates/psk/default"

  /** The directory tried at attempt `k`: the base, then the base with the
      suffix 2, 3, ... */
  function Attempt(k: nat): (path: string)
    ensures TemplateBase <= path
  {
    if k == 0 then TemplateBase else TemplateBase + NatToString(k + 1)
  }

  /** Different attempts name different directories. */
  lemma AttemptInjective(j: nat, k: nat)
    requires j != k
    ensures Attempt(j) != Attempt(k)
  {
    if j > 0 && k > 0 {
      if Attempt(j) == Attempt(k) {
        var a := NatToString(j + 1);
        var b := NatToString(k + 1);
        assert a == Attempt(j)[|TemplateBase|..];
        assert b == Attempt(k)[|TemplateBase|..];
        NatToStringInjective(j + 1, k + 1);
      }
    } else if j == 0 && k > 0 {
      assert |Attempt(k)| > |Attempt(j)|;
    } else if k == 0 && j > 0 {
      assert |Attempt(j)| > |Attempt(k)|;
    }
  }

  /** The `os.makedirs` loop: attempts are made in order until a directory
      does not exist yet; every earlier attempt hit `FileExistsError`. */
  method FreeTemplateDir(existing: set<string>) returns (path: string, attempts: nat)
    ensures path == Attempt(attempts)
    ensures path !in existing
    ensures forall j :: 0 <= j < attempts ==> Attempt(j) in existing
    ensures attempts <= |existing|
  {
    attempts := 0;
    ghost var tried: set<string> := {};
    while Attempt(attempts) in existing
      invariant tried <= existing
      invariant |tried| == attempts
      invariant forall j :: 0 <= j < attempts ==> Attempt(j) in tried
      invariant forall p :: p in tried ==> exists j :: 0 <= j < attempts && p == Attempt(j)
      decreases |existing| - |tried|
    {
      assert Attempt(attempts) !in tried by {
        forall j | 0 <= j < attempts
          ensures Attempt(j) != Attempt(attempts)
        {
          AttemptInjective(j, attempts);
        }
      }
      tried := tried + {Attempt(attempts)};
      attempts := attempts + 1;
      assert |tried| <= |existing| by {
        SubsetCardinality(tried, existing);
      }
    }
    SubsetCardinality(tried, existing);
    path := Attempt(attempts);
  }

  lemma SubsetCardinality(a: set<string>, b: set<string>)
    requires a <= b
    ensures |a| <= |b|
  {
    assert b == a + (b - a);
  }

  /** Resources of the template package that are not templates. */
  const Excluded: seq<string> := ["__init__.py", "__pycache__"]

  /** The copies made: each packaged resource that is not excluded, in
      package order, paired with its destination inside `dir`. */
  function CopyPlan(resources: seq<string>, dir: string): (plan: seq<(string, string)>)
    ensures |plan| <= |resources|
    ensures forall r :: r in resources && r !in Excluded ==> (r, dir + "/" + r) in plan
    ensures forall c :: c in plan ==> c.0 in resources && c.0 !in Excluded && c.1 == dir + "/" + c.0
    decreases |resources|
  {
    if |resources| == 0 then []
    else
      var rest := CopyPlan(resources[1..], dir);
      if resources[0] in Excluded then rest else [(resources[0], dir + "/" + resources[0])] + rest
  }

  /** A template generated into the base directory is where the `psk` command
      looks for templates by default, so it passes the parser's check. */
  lemma FirstTemplateDirIsDefault(resources: seq<string>, files: set<string>)
    requires forall t :: t in TemplateFiles ==> t in resources
    requires forall c :: c in CopyPlan(resources, Attempt(0)) ==> c.1 in files
    ensures TemplatesPresent(DefaultTemplatePath, files)
  {
    forall t | t in TemplateFiles
      ensures DefaultTemplatePath + t in files
    {
      assert t !in Excluded;
      assert (t, Attempt(0) + "/" + t) in CopyPlan(resources, Attempt(0));
      assert Attempt(0) + "/" + t == DefaultTemplatePath + t;
    }
  }

  // ---------------------------------------------------------------------------
  // main

  /** Everything `main` reads from outside: the length of `sys.argv` and what
      argparse makes of it, the files and directories present, the
      environment, the random draws, the dashboard's replies, the resources
      of the template package and today's date. */
  datatype World = World(
    argvLength: nat,
    parsed: ParseOutcome,
    files: set<string>,
    env: Env,
    draws: PskGenerator.Draws,
    remote: Remote,
    resources: seq<string>,
    today: string)

  /** What `main` did before returning its code. */
  datatype Effects =
    | NoAction
    | PskChanged(toolkit: Toolkit, report: RunReport, email: Option<EmailDraft>)
    | TemplatesCopied(dir: string, copies: seq<(string, string)>)

  datatype Exit = Exit(code: int, effects: Effects)

  /** The `psk` branch: build the toolkit from the namespace, run the PSK
      change, then the e-mail step when recipients were given, which composes
      a message only for a successful operation. The e-mail step cannot fail
      here: it is reached only with a non-empty recipient list. */
  function PskBranch(apikey: Option<string>, s: Settings, w: World): (r: Step<Effects>)
    ensures r.Done? ==> r.value.PskChanged?
    ensures r.Done? ==> Done(r.value.toolkit) == NewToolkit(apikey, s, w.env, w.draws)
    ensures r.Done? ==> Done(r.value.report) == Run(r.value.toolkit.current, w.remote)
    ensures r.Done? ==> (r.value.email.Some? <==> TruthyList(s.email) && r.value.report.record.success)
    ensures r.Done? && r.value.email.Some? ==> r.value.email.value.recipients == s.email.value
    ensures r.Done? ==>
      r.value.email == (if TruthyList(s.email) then ComposeEmail(r.value.report.record, w.today).value else None)
    ensures !r.Crashed? || NewToolkit(apikey, s, w.env, w.draws).Crashed?
    ensures !NewToolkit(apikey, s, w.env, w.draws).Done? ==> r == NewToolkit(apikey, s, w.env, w.draws).PropagateFailure()
    ensures NewToolkit(apikey, s, w.env, w.draws).Done? ==>
      var run := Run(NewToolkit(apikey, s, w.env, w.draws).value.current, w.remote);
      && (run.Done? ==> r.Done?)
      && (!run.Done? ==> r == run.PropagateFailure())
  {
    var toolkit :- NewToolkit(apikey, s, w.env, w.draws);
    var report :- Run(toolkit.current, w.remote);
    var email := if TruthyList(s.email) then ComposeEmail(report.record, w.today) else Done(None);
    Done(PskChanged(toolkit, report, email.value))
  }

  /** `main()`: the return code is the parser's; the commands run in between. */
  method RunMain(w: World) returns (r: Step<Exit>)
    requires w.argvLength >= 1
    ensures r.Done? ==> Parse(w.argvLength, w.parsed, w.files).Done?
    ensures r.Done? ==> r.value.code == Parse(w.argvLength, w.parsed, w.files).value.1
    ensures r.Done? && w.argvLength == 1 ==> r.value == Exit(1, NoAction)
    ensures r.Done? && r.value.effects.PskChanged? ==>
      && w.parsed.Parsed? && w.parsed.ns.command.Psk?
      && Done(r.value.effects.report) == Run(r.value.effects.toolkit.current, w.remote)
      && (r.value.effects.email.Some? ==> r.value.effects.report.changed)
    ensures r.Done? && r.value.effects.TemplatesCopied? ==>
      && w.parsed.Parsed? && w.parsed.ns.command.TemplateGen?
      && r.value.effects.dir !in w.files
      && r.value.effects.copies == CopyPlan(w.resources, r.value.effects.dir)
    ensures Parse(w.argvLength, w.parsed, w.files).Exited? ==> r == Exited(2)
    ensures var p := Parse(w.argvLength, w.parsed, w.files);
            p.Done? && p.value.0.Some? && p.value.0.value.command.Psk? ==>
              var ns := p.value.0.value;
              var b := PskBranch(ns.apikey, ns.command.settings, w);
              && (b.Done? ==> r == Done(Exit(0, b.value)))
              && (!b.Done? ==> r == b.PropagateFailure())
    ensures var p := Parse(w.argvLength, w.parsed, w.files);
            p.Done? && p.value.0.Some? && p.value.0.value.command.TemplateGen? ==>
              && r.Done? && r.value.code == 0 && r.value.effects.TemplatesCopied?
              && exists k: nat :: r.value.effects.dir == Attempt(k)
                                  && forall j :: 0 <= j < k ==> Attempt(j) in w.files
    ensures var p := Parse(w.argvLength, w.parsed, w.files);
            p.Done? && p.value.0.Some? && p.value.0.value.command.NoCommand? ==> r.Crashed?
  {
    var parsed := Parse(w.argvLength, w.parsed, w.files);
    if !parsed.Done? {
      r := parsed.PropagateFailure();
      return;
    }
    var (ns, code) := parsed.value;
    if ns.None? {
      r := Done(Exit(code, NoAction));
      return;
    }
    match ns.value.command {
      case Psk(s) =>
        var effects := PskBranch(ns.value.apikey, s, w);
        if effects.Done? {
          r := Done(Exit(code, effects.value));
        } else {
          r := effects.PropagateFailure();
        }
      case TemplateGen =>
        var dir, attempts := FreeTemplateDir(w.files);
        r := Done(Exit(code, TemplatesCopied(dir, CopyPlan(w.resources, dir))));
      case NoCommand =>
        r := Crashed;
    }
  }
}

=== FILE: psk_change.dfy ===
/** `MerakiToolkit.pskchangeasync`: the fatal preconditions, the filter over
    organizations, networks, tags and SSIDs, the gathered updates and the
    outcome recorded in the operation record. */
module PskChange {

  import opened Outcomes
  import opened Text
  import opened Dashboard
  import opened Operation

  /** The dashboard during one run, as the replies each request receives:
      organizations by one trace, networks by organization id, SSID listings
      and SSID updates by network id. Requests with the same key receive the
      same replies. A request without a trace never settles. */
  datatype Remote = Remote(
    organizations: seq<Reply<seq<Organization>>>,
    networks: map<string, seq<Reply<seq<Network>>>>,
    ssids: map<string, seq<Reply<seq<Ssid>>>>,
    updates: map<string, seq<Reply<Ssid>>>)

  function TraceOf<T>(m: map<string, seq<T>>, key: string): (trace: seq<T>) {
    if key in m then m[key] else []
  }

  // ---------------------------------------------------------------------------
  // Preconditions

  /** The checks made before the dashboard session is opened. Only None is
      refused for the organization and network lists; an empty list passes. */
  predicate PreconditionsHold(s: Settings) {
    && s.organization.Some?
    && s.network.Some?
    && s.passphrase.Some?
    && |s.passphrase.value| >= 8
  }

  // ---------------------------------------------------------------------------
  // Filter

  /** A name passes a filter list when it is listed or the list holds "ALL". */
  predicate Selected(name: string, filter: seq<string>) {
    name in filter || "ALL" in filter
  }

  /** No tag filter (None or empty), or at least one network tag in it. */
  predicate TagsMatch(filter: Option<seq<string>>, networkTags: seq<string>) {
    !TruthyList(filter) || exists t :: t in networkTags && t in filter.value
  }

  predicate NetworkEligible(net: Network, s: Settings)
    requires s.network.Some?
  {
    Selected(net.name, s.network.value) && TagsMatch(s.tags, net.tags)
  }

  /** Index of the first SSID at or after `from` named `name`. */
  function FirstMatch(ssids: seq<Ssid>, name: string, from: nat): (r: Option<nat>)
    requires from <= |ssids|
    ensures r.Some? ==> from <= r.value < |ssids| && ssids[r.value].name == name
    ensures r.Some? ==> forall j :: from <= j < r.value ==> ssids[j].name != name
    ensures r.None? <==> forall j :: from <= j < |ssids| ==> ssids[j].name != name
    decreases |ssids| - from
  {
    if from == |ssids| then None
    else if ssids[from].name == name then Some(from)
    else FirstMatch(ssids, name, from + 1)
  }

  /** The target recorded for slot `i` of a listing. */
  function TargetAt(org: Organization, net: Network, ssid: Ssid, i: nat, mode: string): (t: Target) {
    Target(org.name, net.name, net.id, NatToString(i), ssid.name, mode)
  }

  /** `process_network`: filters by name and tags, lists the SSIDs (a None or
      empty listing gives nothing) and records the first SSID whose name is the
      requested one. A matched SSID without `wpaEncryptionMode` raises
      `KeyError`, which the run's broad handler turns into exit code 2. */
  function ProcessNetwork(org: Organization, net: Network, s: Settings, remote: Remote): (r: Step<Option<Target>>)
    requires s.network.Some?
    ensures !NetworkEligible(net, s) ==> r == Done(None)
    ensures r.Done? && r.value.Some? ==>
      && NetworkEligible(net, s)
      && r.value.value.organization == org.name
      && r.value.value.id == net.id
      && r.value.value.name == net.name
      && r.value.value.ssidName == s.ssid
    ensures !r.Crashed?
    ensures NetworkEligible(net, s) ==>
      var listing := ListSsids(TraceOf(remote.ssids, net.id));
      && (listing.Unsettled? ==> r.Unsettled?)
      && (listing.Exited? ==> r == Exited(2))
      && (listing.Done? && listing.value.Some? ==>
            var l := listing.value.value;
            var m := FirstMatch(l, s.ssid, 0);
            && (m.None? ==> r == Done(None))
            && (m.Some? && l[m.value].wpaEncryptionMode.None? ==> r == Exited(2))
            && (m.Some? && l[m.value].wpaEncryptionMode.Some? ==>
                  && r.Done? && r.value.Some?
                  && r.value.value.ssidPosition == NatToString(m.value)
                  && r.value.value.wpaEncryptionMode == l[m.value].wpaEncryptionMode.value))
  {
    if !NetworkEligible(net, s) then Done(None)
    else
      var listing :- ListSsids(TraceOf(remote.ssids, net.id));
      if listing.None? || |listing.value| == 0 then Done(None)
      else match FirstMatch(listing.value, s.ssid, 0)
        case None => Done(None)
        case Some(i) =>
          var ssid := listing.value[i];
          match ssid.wpaEncryptionMode
          case None => Fatal()
          case Some(mode) => Done(Some(TargetAt(org, net, ssid, i, mode)))
  }

  /** A target names, by its decimal slot, the first SSID of the settled
      listing that carries the requested name. */
  lemma TargetIsFirstMatch(org: Organization, net: Network, s: Settings, remote: Remote, t: Target)
    requires s.network.Some?
    requires ProcessNetwork(org, net, s, remote) == Done(Some(t))
    ensures var listing := ListSsids(TraceOf(remote.ssids, net.id));
            && listing.Done? && listing.value.Some?
            && AllDigits(t.ssidPosition)
            && var slot := ParseNat(t.ssidPosition);
               && slot < |listing.value.value|
               && listing.value.value[slot].name == s.ssid
               && (forall j :: 0 <= j < slot ==> listing.value.value[j].name != s.ssid)
               && listing.value.value[slot].wpaEncryptionMode == Some(t.wpaEncryptionMode)
  {
    var listing := ListSsids(TraceOf(remote.ssids, net.id));
    var i := FirstMatch(listing.value.value, s.ssid, 0).value;
    ParseNatToString(i);
  }

  /** An eligible network whose settled listing has an SSID of the requested
      name, the first of them with an encryption mode, yields a target. */
  lemma MatchingNetworkYieldsTarget(org: Organization, net: Network, s: Settings, remote: Remote, i: nat)
    requires s.network.Some? && NetworkEligible(net, s)
    requires ListSsids(TraceOf(remote.ssids, net.id)).Done?
    requires ListSsids(TraceOf(remote.ssids, net.id)).value.Some?
    requires var l := ListSsids(TraceOf(remote.ssids, net.id)).value.value;
             && i < |l| && l[i].name == s.ssid && l[i].wpaEncryptionMode.Some?
             && forall j :: 0 <= j < i ==> l[j].name != s.ssid
    ensures ProcessNetwork(org, net, s, remote).Done?
    ensures ProcessNetwork(org, net, s, remote).value.Some?
  {
    var l := ListSsids(TraceOf(remote.ssids, net.id)).value.value;
    var m := FirstMatch(l, s.ssid, 0);
    assert l[i].name == s.ssid;
    assert m.Some? && m.value == i;
  }

  /** A network whose listing is None or empty never yields a target. */
  lemma EmptyListingYieldsNothing(org: Organization, net: Network, s: Settings, remote: Remote)
    requires s.network.Some?
    requires ListSsids(TraceOf(remote.ssids, net.id)) == Done(None)
          || ListSsids(TraceOf(remote.ssids, net.id)) == Done(Some([]))
    ensures ProcessNetwork(org, net, s, remote) == Done(None)
  {
  }

  /** A listing without an SSID of the requested name yields no target. */
  lemma NoMatchYieldsNothing(org: Organization, net: Network, s: Settings, remote: Remote, l: seq<Ssid>)
    requires s.network.Some?
    requires ListSsids(TraceOf(remote.ssids, net.id)) == Done(Some(l))
    requires forall j :: 0 <= j < |l| ==> l[j].name != s.ssid
    ensures ProcessNetwork(org, net, s, remote) == Done(None)
  {
  }

  /** A tag filter that shares no tag with the network excludes it, whatever
      the dashboard would answer. */
  lemma DisjointTagsExclude(org: Organization, net: Network, s: Settings, remote: Remote)
    requires s.network.Some?
    requires s.tags.Some? && |s.tags.value| > 0
    requires forall t :: t in net.tags ==> t !in s.tags.value
    ensures ProcessNetwork(org, net, s, remote) == Done(None)
  {
  }

  /** The dashboard applies the update of a target to the very SSID slot the
      scan found: that slot gets the passphrase, every other slot is as it was. */
  lemma UpdateHitsMatchedSlot(org: Organization, net: Network, s: Settings, remote: Remote, t: Target, psk: string)
    requires s.network.Some?
    requires ProcessNetwork(org, net, s, remote) == Done(Some(t))
    ensures var l := ListSsids(TraceOf(remote.ssids, net.id)).value.value;
            var after := ApplyPsk(l, t.ssidPosition, psk);
            && after.Some?
            && exists slot :: 0 <= slot < |l|
                 && l[slot].name == s.ssid
                 && (forall j :: 0 <= j < slot ==> l[j].name != s.ssid)
                 && after.value[slot] == l[slot].(psk := psk)
                 && (forall j :: 0 <= j < |l| && j != slot ==> after.value[j] == l[j])
  {
    TargetIsFirstMatch(org, net, s, remote, t);
    var l := ListSsids(TraceOf(remote.ssids, net.id)).value.value;
    var slot := ParseNat(t.ssidPosition);
    assert t.ssidPosition != "";
    var after := ApplyPsk(l, t.ssidPosition, psk);
    assert after.value[slot] == l[slot].(psk := psk);
  }

  // ---------------------------------------------------------------------------
  // Discovery

  /** The networks of one organization, each paired with it. */
  function Pair(org: Organization, nets: seq<Network>): (pairs: seq<(Organization, Network)>)
    ensures |pairs| == |nets|
    ensures forall k :: 0 <= k < |nets| ==> pairs[k] == (org, nets[k])
  {
    seq(|nets|, k requires 0 <= k < |nets| => (org, nets[k]))
  }

  /** The organization loop: organizations are visited in order, and for each
      selected one its networks are listed, one request at a time. A None
      network list cannot be iterated: the `TypeError` ends the run with exit
      code 2. */
  function CollectNetworks(orgs: seq<Organization>, s: Settings, remote: Remote): (r: Step<seq<(Organization, Network)>>)
    requires s.organization.Some?
    ensures r.Done? ==> forall k :: 0 <= k < |r.value| ==>
      r.value[k].0 in orgs && Selected(r.value[k].0.name, s.organization.value)
    ensures r.Done? ==> forall o :: o in orgs && Selected(o.name, s.organization.value) ==>
      ListNetworks(TraceOf(remote.networks, o.id)).Done?
      && ListNetworks(TraceOf(remote.networks, o.id)).value.Some?
    ensures r.Exited? ==> r.code == FatalCode
    ensures !r.Crashed?
    decreases |orgs|
  {
    if |orgs| == 0 then Done([])
    else
      var org := orgs[0];
      if !Selected(org.name, s.organization.value) then
        CollectNetworks(orgs[1..], s, remote)
      else
        var listing :- ListNetworks(TraceOf(remote.networks, org.id));
        if listing.None? then Fatal()
        else
          var rest :- CollectNetworks(orgs[1..], s, remote);
          Done(Pair(org, listing.value) + rest)
  }

  /** The organization loop completes once every selected organization's
      network listing completes with a list. */
  lemma {:induction false} CollectNetworksCompletes(orgs: seq<Organization>, s: Settings, remote: Remote)
    requires s.organization.Some?
    requires forall o :: o in orgs && Selected(o.name, s.organization.value) ==>
      ListNetworks(TraceOf(remote.networks, o.id)).Done?
      && ListNetworks(TraceOf(remote.networks, o.id)).value.Some?
    ensures CollectNetworks(orgs, s, remote).Done?
    decreases |orgs|
  {
    if |orgs| > 0 {
      assert forall o :: o in orgs[1..] ==> o in orgs;
      CollectNetworksCompletes(orgs[1..], s, remote);
    }
  }

  /** How `asyncio.gather` joins one task with the tasks after it: an exit in
      any task ends the run even while others are still retrying; otherwise the
      results keep task order. */
  function GatherStep<T>(head: Step<T>, tail: Step<seq<T>>): (r: Step<seq<T>>)
    ensures r.Done? <==> head.Done? && tail.Done?
    ensures r.Done? ==> r.value == [head.value] + tail.value
    ensures r.Exited? <==> head.Exited? || tail.Exited?
    ensures r.Exited? ==> r.code == (if head.Exited? then head.code else tail.code)
    ensures r.Crashed? <==> !r.Exited? && (head.Crashed? || tail.Crashed?)
  {
    if head.Exited? then Exited(head.code)
    else if tail.Exited? then tail
    else if head.Crashed? || tail.Crashed? then Crashed
    else if head.Unsettled? || tail.Unsettled? then Unsettled
    else Done([head.value] + tail.value)
  }

  /** `asyncio.gather(*process_networks_tasks)`. */
  function ProcessAll(pairs: seq<(Organization, Network)>, s: Settings, remote: Remote): (r: Step<seq<Option<Target>>>)
    requires s.network.Some?
    ensures r.Done? ==> |r.value| == |pairs|
    ensures r.Exited? ==> r.code == FatalCode
    ensures !r.Crashed?
    decreases |pairs|
  {
    if |pairs| == 0 then Done([])
    else GatherStep(ProcessNetwork(pairs[0].0, pairs[0].1, s, remote), ProcessAll(pairs[1..], s, remote))
  }

  /** Gathering is an order-preserving map over the tasks: when it completes,
      result `k` is what task `k` gives on its own; it ends with an exit exactly
      when some task does. */
  lemma {:induction false} GatherIsOrderedMap(pairs: seq<(Organization, Network)>, s: Settings, remote: Remote)
    requires s.network.Some?
    ensures ProcessAll(pairs, s, remote).Done? <==>
      forall k :: 0 <= k < |pairs| ==> ProcessNetwork(pairs[k].0, pairs[k].1, s, remote).Done?
    ensures ProcessAll(pairs, s, remote).Done? ==> forall k :: 0 <= k < |pairs| ==>
      Done(ProcessAll(pairs, s, remote).value[k]) == ProcessNetwork(pairs[k].0, pairs[k].1, s, remote)
    ensures ProcessAll(pairs, s, remote).Exited? <==>
      exists k :: 0 <= k < |pairs| && ProcessNetwork(pairs[k].0, pairs[k].1, s, remote).Exited?
    decreases |pairs|
  {
    if |pairs| > 0 {
      GatherIsOrderedMap(pairs[1..], s, remote);
      var head := ProcessNetwork(pairs[0].0, pairs[0].1, s, remote);
      var tail := ProcessAll(pairs[1..], s, remote);
      assert forall k :: 1 <= k < |pairs| ==> pairs[k] == pairs[1..][k - 1];
      if head.Exited? {
      } else if tail.Exited? {
        var k :| 0 <= k < |pairs[1..]| && ProcessNetwork(pairs[1..][k].0, pairs[1..][k].1, s, remote).Exited?;
        assert pairs[k + 1] == pairs[1..][k];
      } else {
        forall k | 0 <= k < |pairs|
          ensures !ProcessNetwork(pairs[k].0, pairs[k].1, s, remote).Exited?
        {
          if k > 0 {
            assert pairs[k] == pairs[1..][k - 1];
          }
        }
      }
    }
  }

  /** The targets found: `[x for x in results if x is not None]`. */
  function Present(found: seq<Option<Target>>): (targets: seq<Target>)
    ensures |targets| <= |found|
    ensures forall t :: t in targets ==> Some(t) in found
    ensures forall k :: 0 <= k < |found| && found[k].Some? ==> found[k].value in targets
    decreases |found|
  {
    if |found| == 0 then []
    else (if found[0].Some? then [found[0].value] else []) + Present(found[1..])
  }

  /** Filtering keeps order and multiplicity: it maps a found target to
      itself, a None to nothing, and a concatenation to the concatenation of
      the filtered parts. These three equations determine `Present`. */
  lemma {:induction false} PresentAppend(a: seq<Option<Target>>, b: seq<Option<Target>>)
    ensures Present(a + b) == Present(a) + Present(b)
    ensures Present([None]) == []
    ensures forall t :: Present([Some(t)]) == [t]
    decreases |a|
  {
    var none: seq<Option<Target>> := [None];
    assert none[1..] == [];
    forall t
      ensures Present([Some(t)]) == [t]
    {
      assert [Some(t)][1..] == [];
    }
    if |a| == 0 {
      assert a + b == b;
    } else {
      assert (a + b)[1..] == a[1..] + b;
      PresentAppend(a[1..], b);
    }
  }

  /** Resolution of the targets from an organization listing. */
  function DiscoverTargets(orgs: seq<Organization>, s: Settings, remote: Remote): (r: Step<seq<Target>>)
    requires s.organization.Some? && s.network.Some?
    ensures r.Exited? ==> r.code == FatalCode
    ensures !r.Crashed?
  {
    var pairs :- CollectNetworks(orgs, s, remote);
    var found :- ProcessAll(pairs, s, remote);
    Done(Present(found))
  }

  // ---------------------------------------------------------------------------
  // Sequential reference

  /** Reference semantics without fan-out: each network is processed as soon
      as its organization's listing arrives. */
  function SequentialNetworks(org: Organization, nets: seq<Network>, s: Settings, remote: Remote): (r: Step<seq<Target>>)
    requires s.network.Some?
    decreases |nets|
  {
    if |nets| == 0 then Done([])
    else
      var found :- ProcessNetwork(org, nets[0], s, remote);
      var rest :- SequentialNetworks(org, nets[1..], s, remote);
      Done((if found.Some? then [found.value] else []) + rest)
  }

  function SequentialTargets(orgs: seq<Organization>, s: Settings, remote: Remote): (r: Step<seq<Target>>)
    requires s.organization.Some? && s.network.Some?
    decreases |orgs|
  {
    if |orgs| == 0 then Done([])
    else
      var org := orgs[0];
      if !Selected(org.name, s.organization.value) then
        SequentialTargets(orgs[1..], s, remote)
      else
        var listing :- ListNetworks(TraceOf(remote.networks, org.id));
        if listing.None? then Fatal()
        else
          var here :- SequentialNetworks(org, listing.value, s, remote);
          var rest :- SequentialTargets(orgs[1..], s, remote);
          Done(here + rest)
  }

  lemma {:induction false} ProcessAllAppend(a: seq<(Organization, Network)>, b: seq<(Organization, Network)>, s: Settings, remote: Remote)
    requires s.network.Some?
    ensures ProcessAll(a + b, s, remote).Done? <==> ProcessAll(a, s, remote).Done? && ProcessAll(b, s, remote).Done?
    ensures ProcessAll(a + b, s, remote).Done? ==>
      ProcessAll(a + b, s, remote).value == ProcessAll(a, s, remote).value + ProcessAll(b, s, remote).value
    decreases |a|
  {
    if |a| == 0 {
      assert a + b == b;
    } else {
      assert (a + b)[0] == a[0];
      assert (a + b)[1..] == a[1..] + b;
      ProcessAllAppend(a[1..], b, s, remote);
    }
  }

  lemma {:induction false} NetworksAgree(org: Organization, nets: seq<Network>, s: Settings, remote: Remote)
    requires s.network.Some?
    ensures ProcessAll(Pair(org, nets), s, remote).Done? <==> SequentialNetworks(org, nets, s, remote).Done?
    ensures ProcessAll(Pair(org, nets), s, remote).Done? ==>
      Present(ProcessAll(Pair(org, nets), s, remote).value) == SequentialNetworks(org, nets, s, remote).value
    decreases |nets|
  {
    if |nets| > 0 {
      NetworksAgree(org, nets[1..], s, remote);
      assert Pair(org, nets)[1..] == Pair(org, nets[1..]);
      assert Pair(org, nets)[0] == (org, nets[0]);
      var all := ProcessAll(Pair(org, nets), s, remote);
      if all.Done? {
        assert all.value[1..] == ProcessAll(Pair(org, nets[1..]), s, remote).value;
      }
    }
  }

  /** Fan-out and the sequential reference resolve the same targets, in the
      same order, whenever either completes. */
  lemma {:induction false} FanOutMatchesSequential(orgs: seq<Organization>, s: Settings, remote: Remote)
    requires s.organization.Some? && s.network.Some?
    ensures DiscoverTargets(orgs, s, remote).Done? <==> SequentialTargets(orgs, s, remote).Done?
    ensures DiscoverTargets(orgs, s, remote).Done? ==>
      DiscoverTargets(orgs, s, remote).value == SequentialTargets(orgs, s, remote).value
    decreases |orgs|
  {
    if |orgs| > 0 {
      FanOutMatchesSequential(orgs[1..], s, remote);
      var org := orgs[0];
      if Selected(org.name, s.organization.value) {
        var listing := ListNetworks(TraceOf(remote.networks, org.id));
        if listing.Done? && listing.value.Some? {
          var here := Pair(org, listing.value.value);
          var rest := CollectNetworks(orgs[1..], s, remote);
          NetworksAgree(org, listing.value.value, s, remote);
          if rest.Done? {
            ProcessAllAppend(here, rest.value, s, remote);
            var a := ProcessAll(here, s, remote);
            var b := ProcessAll(rest.value, s, remote);
            if a.Done? && b.Done? {
              PresentAppend(a.value, b.value);
            }
          }
        }
      }
    }
  }

  // ---------------------------------------------------------------------------
  // Updates and outcome

  /** `asyncio.gather` over the update calls, one per target. */
  function UpdateAll(targets: seq<Target>, psk: string, remote: Remote): (r: Step<seq<bool>>)
    ensures r.Done? ==> |r.value| == |targets|
    ensures r.Exited? ==> r.code == FatalCode
    ensures !r.Crashed?
    decreases |targets|
  {
    if |targets| == 0 then Done([])
    else GatherStep(UpdateSsid(TraceOf(remote.updates, targets[0].id), psk), UpdateAll(targets[1..], psk, remote))
  }

  /** The update gather completes exactly when every update request settles
      without an exit, and ends with an exit exactly when one of them does. */
  lemma {:induction false} UpdateAllCompletes(targets: seq<Target>, psk: string, remote: Remote)
    ensures UpdateAll(targets, psk, remote).Done? <==>
      forall k :: 0 <= k < |targets| ==> UpdateSsid(TraceOf(remote.updates, targets[k].id), psk).Done?
    ensures UpdateAll(targets, psk, remote).Exited? <==>
      exists k :: 0 <= k < |targets| && UpdateSsid(TraceOf(remote.updates, targets[k].id), psk).Exited?
    decreases |targets|
  {
    if |targets| > 0 {
      UpdateAllCompletes(targets[1..], psk, remote);
      assert forall k :: 1 <= k < |targets| ==> targets[k] == targets[1..][k - 1];
      var head := UpdateSsid(TraceOf(remote.updates, targets[0].id), psk);
      var tail := UpdateAll(targets[1..], psk, remote);
      if tail.Exited? {
        var k :| 0 <= k < |targets[1..]| && UpdateSsid(TraceOf(remote.updates, targets[1..][k].id), psk).Exited?;
        assert targets[k + 1] == targets[1..][k];
      }
    }
  }

  /** Some update of the run was confirmed by the dashboard. */
  predicate SomeUpdateConfirmed(targets: seq<Target>, psk: string, remote: Remote) {
    exists k :: 0 <= k < |targets| && UpdateSsid(TraceOf(remote.updates, targets[k].id), psk) == Done(true)
  }

  /** `True in gather(...)` holds exactly when some update was confirmed. */
  lemma {:induction false} ChangedIffConfirmed(targets: seq<Target>, psk: string, remote: Remote)
    requires UpdateAll(targets, psk, remote).Done?
    ensures (true in UpdateAll(targets, psk, remote).value) <==> SomeUpdateConfirmed(targets, psk, remote)
    decreases |targets|
  {
    if |targets| > 0 {
      ChangedIffConfirmed(targets[1..], psk, remote);
      var head := UpdateSsid(TraceOf(remote.updates, targets[0].id), psk);
      var tail := UpdateAll(targets[1..], psk, remote);
      assert UpdateAll(targets, psk, remote).value == [head.value] + tail.value;
      if SomeUpdateConfirmed(targets[1..], psk, remote) {
        var k :| 0 <= k < |targets[1..]| && UpdateSsid(TraceOf(remote.updates, targets[1..][k].id), psk) == Done(true);
        assert targets[k + 1] == targets[1..][k];
      }
      if SomeUpdateConfirmed(targets, psk, remote) {
        var k :| 0 <= k < |targets| && UpdateSsid(TraceOf(remote.updates, targets[k].id), psk) == Done(true);
        if k > 0 {
          assert targets[k] == targets[1..][k - 1];
        }
      }
    }
  }

  /** What a completed run reports: the operation record afterwards, the
      targets in discovery order, the targets an update was sent for, and
      `data_has_changed`. */
  datatype RunReport = RunReport(
    record: OperationRecord,
    targets: seq<Target>,
    updated: seq<Target>,
    changed: bool)

  /** The record is finalised only when data changed (really or simulated). */
  function Finish(op: OperationRecord, targets: seq<Target>, updated: seq<Target>, changed: bool): (report: RunReport) {
    var record := if changed then op.(success := true, networksToProcess := Some(targets)) else op;
    RunReport(record, targets, updated, changed)
  }

  /** `pskchangeasync`. */
  function Run(op: OperationRecord, remote: Remote): (r: Step<RunReport>)
    ensures !PreconditionsHold(op.settings) ==> r == Exited(2)
    ensures r.Exited? ==> r.code == FatalCode
    ensures !r.Crashed?
    ensures r.Done? ==> PreconditionsHold(op.settings)
    ensures r.Done? && r.value.changed ==>
      r.value.record == op.(success := true, networksToProcess := Some(r.value.targets))
    ensures r.Done? && !r.value.changed ==> r.value.record == op
    ensures r.Done? && op.settings.dryrun ==> r.value.changed && r.value.updated == []
    ensures r.Done? && !op.settings.dryrun && op.settings.verbose >= 1 ==> !r.value.changed && r.value.updated == []
    ensures r.Done? && !op.settings.dryrun && op.settings.verbose == 0 ==> r.value.updated == r.value.targets
  {
    var s := op.settings;
    if !PreconditionsHold(s) then Fatal()
    else
      var orgs :- ListOrganizations(remote.organizations);
      if orgs.None? then Fatal()
      else
        var targets :- DiscoverTargets(orgs.value, s, remote);
        if s.dryrun || s.verbose >= 1 then
          Done(Finish(op, targets, [], s.dryrun))
        else
          var results :- UpdateAll(targets, s.passphrase.value, remote);
          Done(Finish(op, targets, targets, true in results))
  }

  /** A failed precondition ends the run with exit code 2 whatever the
      dashboard would answer, so no request is made; when the preconditions
      hold, the run waits on the organization request. */
  lemma PreconditionsGateRemote(op: OperationRecord, r1: Remote, r2: Remote)
    ensures !PreconditionsHold(op.settings) ==> Run(op, r1) == Run(op, r2) == Exited(2)
    ensures PreconditionsHold(op.settings) ==> Run(op, r1.(organizations := [])) == Unsettled
  {
  }

  /** A live run is successful exactly when the dashboard confirmed at least
      one update; with no target nothing is confirmed. */
  lemma LiveRunSuccess(op: OperationRecord, remote: Remote)
    requires !op.settings.dryrun && op.settings.verbose == 0
    requires Run(op, remote).Done?
    ensures var rep := Run(op, remote).value;
            && (rep.changed <==> SomeUpdateConfirmed(rep.targets, op.settings.passphrase.value, remote))
            && (rep.targets == [] ==> !rep.changed && rep.record == op)
  {
    var s := op.settings;
    var rep := Run(op, remote).value;
    ChangedIffConfirmed(rep.targets, s.passphrase.value, remote);
  }

  // ---------------------------------------------------------------------------
  // What a run depends on

  lemma {:induction false} ProcessAllIgnoresUpdates(pairs: seq<(Organization, Network)>, s: Settings, remote: Remote, u: map<string, seq<Reply<Ssid>>>)
    requires s.network.Some?
    ensures ProcessAll(pairs, s, remote) == ProcessAll(pairs, s, remote.(updates := u))
    decreases |pairs|
  {
    if |pairs| > 0 {
      ProcessAllIgnoresUpdates(pairs[1..], s, remote, u);
    }
  }

  lemma {:induction false} CollectNetworksIgnoresUpdates(orgs: seq<Organization>, s: Settings, remote: Remote, u: map<string, seq<Reply<Ssid>>>)
    requires s.organization.Some?
    ensures CollectNetworks(orgs, s, remote) == CollectNetworks(orgs, s, remote.(updates := u))
    decreases |orgs|
  {
    if |orgs| > 0 {
      CollectNetworksIgnoresUpdates(orgs[1..], s, remote, u);
    }
  }

  /** A dry run, or a verbose run, never sends an update: its outcome is the
      same whatever the dashboard would answer to update requests. */
  lemma ListingRunSendsNoUpdate(op: OperationRecord, remote: Remote, u: map<string, seq<Reply<Ssid>>>)
    requires op.settings.dryrun || op.settings.verbose >= 1
    ensures Run(op, remote) == Run(op, remote.(updates := u))
  {
    var s := op.settings;
    var other := remote.(updates := u);
    if PreconditionsHold(s) {
      var orgs := ListOrganizations(remote.organizations);
      if orgs.Done? && orgs.value.Some? {
        CollectNetworksIgnoresUpdates(orgs.value.value, s, remote, u);
        var pairs := CollectNetworks(orgs.value.value, s, remote);
        if pairs.Done? {
          ProcessAllIgnoresUpdates(pairs.value, s, remote, u);
        }
        assert DiscoverTargets(orgs.value.value, s, remote) == DiscoverTargets(orgs.value.value, s, other);
      }
    }
  }

  /** The targets of a completed run are the resolution of the organization
      listing: in discovery order, the same as the one-network-at-a-time
      reference resolves. */
  lemma RunTargetsAreResolution(op: OperationRecord, remote: Remote)
    requires Run(op, remote).Done?
    ensures PreconditionsHold(op.settings)
    ensures ListOrganizations(remote.organizations).Done?
    ensures ListOrganizations(remote.organizations).value.Some?
    ensures var orgs := ListOrganizations(remote.organizations).value.value;
            && Done(Run(op, remote).value.targets) == DiscoverTargets(orgs, op.settings, remote)
            && Done(Run(op, remote).value.targets) == SequentialTargets(orgs, op.settings, remote)
  {
    var orgs := ListOrganizations(remote.organizations).value.value;
    FanOutMatchesSequential(orgs, op.settings, remote);
  }

  /** `asyncio.gather` over the updates: result `k` is the outcome of the one
      update request sent for target `k`. */
  lemma {:induction false} UpdateAllIsOrderedMap(targets: seq<Target>, psk: string, remote: Remote)
    requires UpdateAll(targets, psk, remote).Done?
    ensures forall k :: 0 <= k < |targets| ==>
      Done(UpdateAll(targets, psk, remote).value[k]) == UpdateSsid(TraceOf(remote.updates, targets[k].id), psk)
    decreases |targets|
  {
    if |targets| > 0 {
      UpdateAllIsOrderedMap(targets[1..], psk, remote);
      forall k | 1 <= k < |targets|
        ensures targets[k] == targets[1..][k - 1]
      {
      }
    }
  }

  /** A completed live run sent one update per target, and `changed` is
      whether some of them returned True. */
  lemma LiveRunUpdatesEachTarget(op: OperationRecord, remote: Remote)
    requires !op.settings.dryrun && op.settings.verbose == 0
    requires Run(op, remote).Done?
    ensures var rep := Run(op, remote).value;
            var results := UpdateAll(rep.targets, op.settings.passphrase.value, remote);
            && results.Done?
            && (forall k :: 0 <= k < |rep.targets| ==>
                  Done(results.value[k]) == UpdateSsid(TraceOf(remote.updates, rep.targets[k].id), op.settings.passphrase.value))
            && rep.changed == (true in results.value)
  {
    var rep := Run(op, remote).value;
    UpdateAllIsOrderedMap(rep.targets, op.settings.passphrase.value, remote);
  }

  /** A run whose every request settles completes: with the preconditions
      met, an organization list, resolved targets and, for a live run,
      settled updates, the run reports exactly the resolved targets. A dry
      run reports a change; a live run reports one exactly when some update
      returned True. */
  lemma RunCompletes(op: OperationRecord, remote: Remote, orgs: seq<Organization>, ts: seq<Target>)
    requires PreconditionsHold(op.settings)
    requires ListOrganizations(remote.organizations) == Done(Some(orgs))
    requires DiscoverTargets(orgs, op.settings, remote) == Done(ts)
    requires op.settings.dryrun || op.settings.verbose >= 1
          || UpdateAll(ts, op.settings.passphrase.value, remote).Done?
    ensures Run(op, remote).Done?
    ensures Run(op, remote).value.targets == ts
    ensures op.settings.dryrun ==> Run(op, remote).value.changed
    ensures !op.settings.dryrun && op.settings.verbose == 0 ==>
      Run(op, remote).value.changed == (true in UpdateAll(ts, op.settings.passphrase.value, remote).value)
  {
  }

  /** After the preconditions, the run ends with exit code 2 when the
      organization listing exits or gives None (iterating None raises
      `TypeError`), when target resolution exits, and, in a live run, when an
      update exits: the broad handler catches each of these. */
  lemma RunExits(op: OperationRecord, remote: Remote)
    requires PreconditionsHold(op.settings)
    ensures var lo := ListOrganizations(remote.organizations);
            (lo.Exited? || lo == Done(None)) ==> Run(op, remote) == Exited(2)
    ensures var lo := ListOrganizations(remote.organizations);
            lo.Done? && lo.value.Some? && DiscoverTargets(lo.value.value, op.settings, remote).Exited? ==>
              Run(op, remote) == Exited(2)
    ensures var lo := ListOrganizations(remote.organizations);
            lo.Done? && lo.value.Some? && DiscoverTargets(lo.value.value, op.settings, remote).Done?
            && !op.settings.dryrun && op.settings.verbose == 0
            && UpdateAll(DiscoverTargets(lo.value.value, op.settings, remote).value, op.settings.passphrase.value, remote).Exited? ==>
              Run(op, remote) == Exited(2)
  {
  }

  /** The organization loop ends with exit code 2 at a selected organization
      whose network listing is None or exits, once the selected organizations
      before it were listed. */
  lemma {:induction false} NoneListingExits(orgs: seq<Organization>, s: Settings, remote: Remote, i: nat)
    requires s.organization.Some?
    requires i < |orgs| && Selected(orgs[i].name, s.organization.value)
    requires ListNetworks(TraceOf(remote.networks, orgs[i].id)) == Done(None)
          || ListNetworks(TraceOf(remote.networks, orgs[i].id)).Exited?
    requires forall j :: 0 <= j < i && Selected(orgs[j].name, s.organization.value) ==>
      ListNetworks(TraceOf(remote.networks, orgs[j].id)).Done?
      && ListNetworks(TraceOf(remote.networks, orgs[j].id)).value.Some?
    ensures CollectNetworks(orgs, s, remote) == Exited(2)
    decreases i
  {
    if i > 0 {
      assert forall j :: 0 <= j < i - 1 ==> orgs[1..][j] == orgs[j + 1];
      NoneListingExits(orgs[1..], s, remote, i - 1);
    }
  }
}

=== FILE: psk_generator.dfy ===
/** The passphrase transformer (`generate_psk`) and the Wi-Fi QR payload
    (`generate_qrcode`) of merakitoolkitsupport. Randomness is passed in as
    draws; the transformation itself is deterministic. */
module PskGenerator {

  import opened Outcomes
  import opened Text

  /** The symbols one of which is inserted when a passphrase is randomised. */
  const Symbols: string := "@#!.&()="

  /** Python's `string.digits`. */
  const Digits: string := "0123456789"

  /** A word of the xkcdpass word list generated with lengths 8 to 12. */
  type Word = w: string | 8 <= |w| <= 12 witness "passwords"

  /** The values `generate_psk` obtains from `random` and xkcdpass. Each raw
      draw is reduced into the range of the call it stands for, so every
      choice the library can make is reachable and nothing else is.
      - pick: `random.choice(psk_list)`;
      - word: the generated passphrase segment, used when the choice is "";
      - upper, symbolAt, digitAt: the three `random.randint(0, len(psk)-1)`;
      - symbol, digit: `random.choice` over the symbol set and the digits. */
  datatype Draws = Draws(
    pick: nat,
    word: Word,
    upper: nat,
    symbolAt: nat,
    symbol: nat,
    digitAt: nat,
    digit: nat)

  /** The candidate picked by `random.choice`. */
  function Chosen(candidates: seq<string>, d: Draws): (c: string)
    requires |candidates| >= 1
    ensures c in candidates
  {
    candidates[d.pick % |candidates|]
  }

  /** The string the transformation starts from: the chosen candidate, or the
      generated word when the chosen candidate is empty. */
  function Seed(candidates: seq<string>, d: Draws): (s: string)
    requires |candidates| >= 1
    ensures |s| >= 1
  {
    var c := Chosen(candidates, d);
    if c == "" then d.word else c
  }

  /** Randomisation runs when asked for, and is forced on for a generated word. */
  predicate Randomizes(candidates: seq<string>, randomize: bool, d: Draws)
    requires |candidates| >= 1
  {
    randomize || Chosen(candidates, d) == ""
  }

  // ---------------------------------------------------------------------------
  // Character edits

  /** `s[:i] + s[i].upper() + s[i+1:]` */
  function UpperAt(s: string, i: nat): (r: string)
    requires i < |s|
    ensures |r| == |s|
    ensures r[i] == AsciiUpper(s[i])
    ensures forall j :: 0 <= j < |s| && j != i ==> r[j] == s[j]
  {
    s[..i] + [AsciiUpper(s[i])] + s[i + 1..]
  }

  /** `s[:i] + c + s[i:]` */
  function InsertAt(s: string, i: nat, c: char): (r: string)
    requires i <= |s|
    ensures |r| == |s| + 1
    ensures r[i] == c
  {
    s[..i] + [c] + s[i..]
  }

  /** Deletes the character at position `i`. */
  function RemoveAt(s: string, i: nat): (r: string)
    requires i < |s|
    ensures |r| == |s| - 1
  {
    s[..i] + s[i + 1..]
  }

  /** Deleting an inserted character gives back the string it was inserted into. */
  lemma RemoveInsert(s: string, i: nat, c: char)
    requires i <= |s|
    ensures RemoveAt(InsertAt(s, i, c), i) == s
  {
    var t := InsertAt(s, i, c);
    assert t[..i] == s[..i];
    assert t[i + 1..] == s[i..];
  }

  /** Inserting before or at position `s` moves the character found there one
      place to the right; inserting after it leaves it where it was. */
  lemma InsertShifts(t: string, p: nat, c: char, s: nat)
    requires p <= |t| && s < |t|
    ensures InsertAt(t, p, c)[if p <= s then s + 1 else s] == t[s]
  {
  }

  /** The randomisation step with its positions fixed: upper-case position `u`,
      insert symbol `sc` at `s`, then digit `dc` at `p`, every position drawn
      against the length of `base` before any insertion. */
  function Randomize(base: string, u: nat, s: nat, sc: char, p: nat, dc: char): (r: string)
    requires u < |base| && s < |base| && p < |base|
    ensures |r| == |base| + 2
    ensures r[p] == dc
    ensures r[if p <= s then s + 1 else s] == sc
    ensures RemoveAt(RemoveAt(r, p), s) == UpperAt(base, u)
  {
    var cased := UpperAt(base, u);
    var withSymbol := InsertAt(cased, s, sc);
    RemoveInsert(withSymbol, p, dc);
    RemoveInsert(cased, s, sc);
    InsertShifts(withSymbol, p, dc, s);
    InsertAt(withSymbol, p, dc)
  }

  /** `random.randint(0, len(psk) - 1)`, one per position drawn. */
  function UpperPosition(seed: string, d: Draws): (i: nat)
    requires |seed| >= 1
    ensures i < |seed|
  {
    d.upper % |seed|
  }

  function SymbolPosition(seed: string, d: Draws): (i: nat)
    requires |seed| >= 1
    ensures i < |seed|
  {
    d.symbolAt % |seed|
  }

  function DigitPosition(seed: string, d: Draws): (i: nat)
    requires |seed| >= 1
    ensures i < |seed|
  {
    d.digitAt % |seed|
  }

  predicate ContainsSymbol(s: string) {
    exists i :: 0 <= i < |s| && s[i] in Symbols
  }

  predicate ContainsDigit(s: string) {
    exists i :: 0 <= i < |s| && IsDigit(s[i])
  }

  /** `generate_psk(psk_list, randomize)`. `random.choice` fails on an empty
      list, so the caller must pass at least one candidate. */
  function GeneratePsk(candidates: seq<string>, randomize: bool, d: Draws): (psk: string)
    requires |candidates| >= 1
    ensures !Randomizes(candidates, randomize, d) ==> psk == Chosen(candidates, d) && psk in candidates
    ensures Randomizes(candidates, randomize, d) ==>
      |psk| == |Seed(candidates, d)| + 2 && ContainsSymbol(psk) && ContainsDigit(psk)
    ensures Chosen(candidates, d) == "" ==> 10 <= |psk| <= 14
  {
    var seed := Seed(candidates, d);
    if Randomizes(candidates, randomize, d) then
      var s := SymbolPosition(seed, d);
      var p := DigitPosition(seed, d);
      var sc := Symbols[d.symbol % |Symbols|];
      var dc := Digits[d.digit % |Digits|];
      var r := Randomize(seed, UpperPosition(seed, d), s, sc, p, dc);
      assert IsDigit(r[p]);
      assert r[if p <= s then s + 1 else s] in Symbols;
      r
    else
      seed
  }

  /** A randomised passphrase is the seed with one character possibly
      upper-cased and two characters inserted: deleting the digit and then the
      symbol gives the seed back with only the upper-case position changed. */
  lemma RandomizedKeepsSeed(candidates: seq<string>, randomize: bool, d: Draws)
    requires |candidates| >= 1
    requires Randomizes(candidates, randomize, d)
    ensures var seed := Seed(candidates, d);
            var psk := GeneratePsk(candidates, randomize, d);
            var u := UpperPosition(seed, d);
            var kept := RemoveAt(RemoveAt(psk, DigitPosition(seed, d)), SymbolPosition(seed, d));
            && |kept| == |seed|
            && kept[u] == AsciiUpper(seed[u])
            && forall j :: 0 <= j < |seed| && j != u ==> kept[j] == seed[j]
  {
  }

  /** An empty candidate makes the randomize flag irrelevant. */
  lemma ForcedRandomization(candidates: seq<string>, d: Draws)
    requires |candidates| >= 1
    requires Chosen(candidates, d) == ""
    ensures GeneratePsk(candidates, false, d) == GeneratePsk(candidates, true, d)
    ensures GeneratePsk(candidates, false, d) != ""
  {
  }

  /** An upper-case letter is produced when the drawn position holds a
      lower-case letter. */
  lemma UpperWhenLowerAtPosition(candidates: seq<string>, randomize: bool, d: Draws)
    requires |candidates| >= 1
    requires Randomizes(candidates, randomize, d)
    requires IsLower(Seed(candidates, d)[UpperPosition(Seed(candidates, d), d)])
    ensures HasUpper(GeneratePsk(candidates, randomize, d))
  {
    var seed := Seed(candidates, d);
    var u := UpperPosition(seed, d);
    var psk := GeneratePsk(candidates, randomize, d);
    var s := SymbolPosition(seed, d);
    var p := DigitPosition(seed, d);
    var cased := UpperAt(seed, u);
    var withSymbol := InsertAt(cased, s, Symbols[d.symbol % |Symbols|]);
    var i1 := if s <= u then u + 1 else u;
    InsertShifts(cased, s, Symbols[d.symbol % |Symbols|], u);
    assert IsUpper(withSymbol[i1]);
    var i2 := if p <= i1 then i1 + 1 else i1;
    InsertShifts(withSymbol, p, Digits[d.digit % |Digits|], i1);
    assert IsUpper(psk[i2]);
  }

  predicate HasUpper(s: string) {
    exists i :: 0 <= i < |s| && IsUpper(s[i])
  }

  lemma SampleHasNoUpper()
    ensures !HasUpper("0@12345678")
  {
    var s := "0@12345678";
    forall i | 0 <= i < |s|
      ensures !IsUpper(s[i])
    {
      assert s[i] <= '@' by {
        if i == 0 {} else if i == 1 {} else if i == 2 {} else if i == 3 {} else if i == 4 {}
        else if i == 5 {} else if i == 6 {} else if i == 7 {} else if i == 8 {} else {}
      }
    }
  }

  /** Randomisation does not guarantee an upper-case letter: when the drawn
      position holds a digit, nothing is upper-cased. */
  lemma UpperNotGuaranteed()
    ensures var psk := GeneratePsk(["12345678"], true, Draws(0, "passwords", 0, 0, 0, 0, 0));
            psk == "0@12345678" && !HasUpper(psk)
  {
    var candidates := ["12345678"];
    var d := Draws(0, "passwords", 0, 0, 0, 0, 0);
    var seed := "12345678";
    assert Chosen(candidates, d) == seed;
    assert Seed(candidates, d) == seed;
    assert UpperPosition(seed, d) == 0 && SymbolPosition(seed, d) == 0 && DigitPosition(seed, d) == 0;
    assert Symbols[0] == '@' && Digits[0] == '0';
    var cased := UpperAt(seed, 0);
    assert cased == seed;
    var withSymbol := InsertAt(cased, 0, '@');
    assert withSymbol == "@12345678";
    var psk := InsertAt(withSymbol, 0, '0');
    assert psk == "0@12345678";
    assert GeneratePsk(candidates, true, d) == psk;
    SampleHasNoUpper();
  }

  // ---------------------------------------------------------------------------
  // QR payload

  /** The protocol written into the QR payload when none is given. */
  const DefaultWifiProtocol: string := "WPA2"

  /** The text encoded in the QR image: `WIFI:S:<ssid>;T:<protocol>;P:<psk>;;`.
      No escaping is applied to any of the three values. */
  function QrPayload(ssid: string, psk: string, protocol: string): (payload: string)
    ensures |payload| == |ssid| + |psk| + |protocol| + 15
  {
    "WIFI:S:" + ssid + ";T:" + protocol + ";P:" + psk + ";;"
  }

  /** Reads a payload back as (ssid, protocol, psk), taking the ssid and the
      protocol up to the first ';' after their field tags. */
  function DecodeQr(payload: string): (fields: Option<(string, string, string)>) {
    if |payload| < 7 || payload[..7] != "WIFI:S:" then None
    else DecodeFields(payload[7..])
  }

  /** Decodes `<ssid>;T:<protocol>;P:<psk>;;`. */
  function DecodeFields(a: string): (fields: Option<(string, string, string)>) {
    match IndexOf(a, ';')
    case None => None
    case Some(i) =>
      var b := a[i + 1..];
      if |b| < 2 || b[..2] != "T:" then None
      else match DecodeTail(b[2..])
        case None => None
        case Some(rest) => Some((a[..i], rest.0, rest.1))
  }

  /** Decodes `<protocol>;P:<psk>;;`. */
  function DecodeTail(c: string): (fields: Option<(string, string)>) {
    match IndexOf(c, ';')
    case None => None
    case Some(j) =>
      var e := c[j + 1..];
      if |e| < 4 || e[..2] != "P:" || e[|e| - 2..] != ";;" then None
      else Some((c[..j], e[2..|e| - 2]))
  }

  /** The first ';' of `x + [';'] + y` is the one right after `x` when `x` has none. */
  lemma FirstSemicolon(x: string, y: string)
    requires ';' !in x
    ensures IndexOf(x + [';'] + y, ';') == Some(|x|)
  {
    var s := x + [';'] + y;
    assert s[|x|] == ';';
    assert forall j :: 0 <= j < |x| ==> s[j] == x[j];
  }

  lemma DecodeTailRoundTrip(protocol: string, psk: string)
    requires ';' !in protocol
    ensures DecodeTail(protocol + ";P:" + psk + ";;") == Some((protocol, psk))
  {
    var c := protocol + [';'] + ("P:" + psk + ";;");
    assert protocol + ";P:" + psk + ";;" == c;
    FirstSemicolon(protocol, "P:" + psk + ";;");
    assert c[..|protocol|] == protocol;
    var e := c[|protocol| + 1..];
    assert e == "P:" + psk + ";;";
    assert e[2..|e| - 2] == psk;
  }

  lemma DecodeFieldsRoundTrip(ssid: string, protocol: string, psk: string)
    requires ';' !in ssid && ';' !in protocol
    ensures DecodeFields(ssid + ";T:" + protocol + ";P:" + psk + ";;") == Some((ssid, protocol, psk))
  {
    var tail := protocol + ";P:" + psk + ";;";
    var a := ssid + [';'] + ("T:" + tail);
    assert ssid + ";T:" + protocol + ";P:" + psk + ";;" == a;
    FirstSemicolon(ssid, "T:" + tail);
    assert a[..|ssid|] == ssid;
    var b := a[|ssid| + 1..];
    assert b == "T:" + tail;
    assert b[2..] == tail;
    DecodeTailRoundTrip(protocol, psk);
  }

  /** When neither the SSID nor the protocol contains ';', the payload
      determines all three values. */
  lemma QrRoundTrip(ssid: string, psk: string, protocol: string)
    requires ';' !in ssid && ';' !in protocol
    ensures DecodeQr(QrPayload(ssid, psk, protocol)) == Some((ssid, protocol, psk))
  {
    var payload := QrPayload(ssid, psk, protocol);
    var fields := ssid + ";T:" + protocol + ";P:" + psk + ";;";
    assert payload == "WIFI:S:" + fields;
    assert payload[..7] == "WIFI:S:";
    assert payload[7..] == fields;
    DecodeFieldsRoundTrip(ssid, protocol, psk);
  }

  /** Without escaping the payload is ambiguous: two different SSID/protocol
      pairs give the same text. */
  lemma QrPayloadAmbiguous()
    ensures QrPayload("x;T:y", "secret12", "z") == QrPayload("x", "secret12", "y;T:z")
  {
  }
}

=== FILE: text.dfy ===
/** String helpers the tool relies on: Python's `str.split("::")`, `str(n)` for
    natural numbers and its inverse `int(s)`, and ASCII upper-casing. */
module Text {

  import opened Outcomes

  /** The separator used by the `MERAKITK_SMTP` and `MERAKITK_PSK` variables. */
  const Separator: string := "::"

  predicate SeparatorAt(s: string, i: int) {
    0 <= i && i + 1 < |s| && s[i] == ':' && s[i + 1] == ':'
  }

  /** No occurrence of "::" anywhere in `s`. */
  predicate FreeOfSeparator(s: string) {
    forall i :: 0 <= i < |s| ==> !SeparatorAt(s, i)
  }

  /** Python's `s.split("::")`: scans left to right, cutting at each leftmost
      non-overlapping "::". Never returns an empty list. */
  function Split(s: string): (parts: seq<string>)
    ensures |parts| >= 1
    ensures parts[0] <= s
    ensures forall k :: 0 <= k < |parts| ==> FreeOfSeparator(parts[k])
    decreases |s|
  {
    if |s| < 2 then
      [s]
    else if s[0] == ':' && s[1] == ':' then
      [""] + Split(s[2..])
    else
      var rest := Split(s[1..]);
      var head := [s[0]] + rest[0];
      assert FreeOfSeparator(head) by {
        forall i | 0 <= i < |head|
          ensures !SeparatorAt(head, i)
        {
          if i > 0 {
            assert !SeparatorAt(rest[0], i - 1);
          } else if |rest[0]| > 0 {
            assert head[1] == s[1];
          }
        }
      }
      [head] + rest[1..]
  }

  /** The first piece ends where the leftmost "::" begins. */
  lemma {:induction false} SplitFirstCut(s: string)
    ensures |Split(s)| > 1 ==> SeparatorAt(s, |Split(s)[0]|)
    decreases |s|
  {
    if |s| >= 2 && !(s[0] == ':' && s[1] == ':') {
      SplitFirstCut(s[1..]);
      var rest := Split(s[1..]);
      assert Split(s) == [[s[0]] + rest[0]] + rest[1..];
      if |rest| > 1 {
        assert SeparatorAt(s[1..], |rest[0]|);
      }
    }
  }

  /** The cuts are Python's: the first piece ends where the leftmost "::"
      begins, and no piece before the last ends with ':' (otherwise the cut
      would have been made one character earlier). A cut after a ':', as in
      ":" and "" for ":::", is therefore not what the split makes. */
  lemma {:induction false} SplitCutsLeftmost(s: string)
    ensures |Split(s)| > 1 ==> SeparatorAt(s, |Split(s)[0]|)
    ensures forall k :: 0 <= k < |Split(s)| - 1 ==> Split(s)[k] == "" || Split(s)[k][|Split(s)[k]| - 1] != ':'
    decreases |s|
  {
    SplitFirstCut(s);
    var parts := Split(s);
    if |s| < 2 {
    } else if s[0] == ':' && s[1] == ':' {
      SplitCutsLeftmost(s[2..]);
      var rest := Split(s[2..]);
      assert parts == [""] + rest;
      forall k | 1 <= k < |parts| - 1
        ensures parts[k] == "" || parts[k][|parts[k]| - 1] != ':'
      {
        assert parts[k] == rest[k - 1];
      }
    } else {
      SplitCutsLeftmost(s[1..]);
      var rest := Split(s[1..]);
      assert parts == [[s[0]] + rest[0]] + rest[1..];
      if |rest| > 1 && rest[0] == "" {
        assert SeparatorAt(s[1..], 0);
        assert s[0] != ':';
      }
      forall k | 0 <= k < |parts| - 1
        ensures parts[k] == "" || parts[k][|parts[k]| - 1] != ':'
      {
        if k == 0 {
          if rest[0] != "" {
            assert parts[0][|parts[0]| - 1] == rest[0][|rest[0]| - 1];
          }
        } else {
          assert parts[k] == rest[k];
        }
      }
    }
  }

  /** Python's `"::".join(parts)`. */
  function Join(parts: seq<string>): (s: string)
    requires |parts| >= 1
    decreases |parts|
  {
    if |parts| == 1 then parts[0] else parts[0] + Separator + Join(parts[1..])
  }

  /** Joining the pieces of a split gives back the original string. */
  lemma {:induction false} JoinSplit(s: string)
    ensures Join(Split(s)) == s
    decreases |s|
  {
    if |s| < 2 {
    } else if s[0] == ':' && s[1] == ':' {
      JoinSplit(s[2..]);
      assert Split(s) == [""] + Split(s[2..]);
      assert ([""] + Split(s[2..]))[1..] == Split(s[2..]);
      assert s == Separator + s[2..];
    } else {
      var rest := Split(s[1..]);
      JoinSplit(s[1..]);
      assert Split(s) == [[s[0]] + rest[0]] + rest[1..];
      JoinExtendsFirst(s[0], rest);
      assert s == [s[0]] + s[1..];
    }
  }

  /** Prefixing the first piece with `c` prefixes the joined string with it. */
  lemma {:induction false} JoinExtendsFirst(c: char, parts: seq<string>)
    requires |parts| >= 1
    ensures Join([[c] + parts[0]] + parts[1..]) == [c] + Join(parts)
  {
    var longer := [[c] + parts[0]] + parts[1..];
    assert longer[0] == [c] + parts[0];
    if |parts| > 1 {
      assert longer[1..] == parts[1..];
      var tail := Separator + Join(parts[1..]);
      assert Join(longer) == ([c] + parts[0]) + tail;
      assert Join(parts) == parts[0] + tail;
      assert ([c] + parts[0]) + tail == [c] + (parts[0] + tail);
    }
  }

  // ---------------------------------------------------------------------------
  // Decimal digits

  predicate IsDigit(c: char) {
    '0' <= c <= '9'
  }

  predicate AllDigits(s: string) {
    forall i :: 0 <= i < |s| ==> IsDigit(s[i])
  }

  function DigitChar(d: nat): (c: char)
    requires d < 10
    ensures IsDigit(c)
    ensures c as int - '0' as int == d
  {
    ('0' as int + d) as char
  }

  function DigitValue(c: char): (d: nat)
    requires IsDigit(c)
    ensures d < 10
  {
    c as int - '0' as int
  }

  /** Python's `str(n)` for a natural number: decimal, no leading zero. */
  function NatToString(n: nat): (s: string)
    ensures |s| >= 1
    ensures AllDigits(s)
    ensures |s| > 1 ==> s[0] != '0'
    decreases n
  {
    if n < 10 then [DigitChar(n)] else NatToString(n / 10) + [DigitChar(n % 10)]
  }

  /** Python's `int(s)` on a string of decimal digits. */
  function ParseNat(s: string): (n: nat)
    requires AllDigits(s)
    decreases |s|
  {
    if |s| == 0 then 0 else ParseNat(s[..|s| - 1]) * 10 + DigitValue(s[|s| - 1])
  }

  /** `int(str(n)) == n`: the decimal string recorded for an SSID slot names
      exactly that slot again. */
  lemma {:induction false} ParseNatToString(n: nat)
    ensures ParseNat(NatToString(n)) == n
    decreases n
  {
    if n >= 10 {
      var s := NatToString(n);
      ParseNatToString(n / 10);
      assert s[..|s| - 1] == NatToString(n / 10);
      assert s[|s| - 1] == DigitChar(n % 10);
    }
  }

  /** Distinct numbers have distinct decimal strings. */
  lemma NatToStringInjective(a: nat, b: nat)
    requires NatToString(a) == NatToString(b)
    ensures a == b
  {
    ParseNatToString(a);
    ParseNatToString(b);
  }

  // ---------------------------------------------------------------------------
  // Case

  predicate IsLower(c: char) {
    'a' <= c <= 'z'
  }

  predicate IsUpper(c: char) {
    'A' <= c <= 'Z'
  }

  /** `c.upper()` restricted to ASCII: lower-case letters map to upper case,
      every other character is left as it is. */
  function AsciiUpper(c: char): (u: char)
    ensures IsLower(c) ==> IsUpper(u) && u as int == c as int - 32
    ensures !IsLower(c) ==> u == c
  {
    if IsLower(c) then (c as int - 32) as char else c
  }

  // ---------------------------------------------------------------------------
  // Search

  /** Position of the first occurrence of `c` in `s`, if any. */
  function IndexOf(s: string, c: char): (r: Option<nat>)
    ensures r.None? <==> c !in s
    ensures r.Some? ==> r.value < |s| && s[r.value] == c
    ensures r.Some? ==> forall j :: 0 <= j < r.value ==> s[j] != c
    decreases |s|
  {
    if |s| == 0 then None
    else if s[0] == c then Some(0)
    else match IndexOf(s[1..], c)
      case None => None
      case Some(i) => Some(i + 1)
  }
}
